=== FILE: README.md ===
# Host weighing in the nova compute scheduler, modelled in Dafny

After filtering, the nova scheduler ranks the candidate compute hosts with a
list of *weighers*. Each weigher computes a raw score for every host:

- `RAMWeigher` uses free memory;
- `IoOpsWeigher` uses in-flight I/O operations;
- `MetricsWeigher` uses a configured weighted sum of named host metrics.

The handler then min-max normalises the raw scores of one weigher over the
whole candidate list, multiplies them by that weigher's signed multiplier,
adds the result to each host's running weight, and finally returns the hosts
heaviest first.

The metrics weigher reads its configuration from the `weight_setting` option,
a list of `name=ratio` strings. It drops malformed entries silently. When a
host lacks a configured metric, there are two cases:

- if metrics are `required` (the default), the whole pass fails with a
  metric-not-found error;
- otherwise the host gets a low penalty score.

The scheduler's implementation modules are not part of this model. Their
behaviour is fixed by the scenarios of `nova/tests/scheduler/test_weights.py`.
The model is built from those scenarios, and every scenario is restated as a
lemma about the model.

Modules:

- `Wrappers`: `Option` and `Result`.
- `Hosts`: the host snapshot, the weighed host, and its diagnostic mapping.
- `Decimal`: the numeric text accepted as a ratio, with its canonical spelling.
- `MetricsSetting`: the `weight_setting` parser.
- `Normalization`: min-max normalisation.
- `Weighers`: the three weighers and their raw scores, including the
  missing-metric rule.
- `Sums`: element-wise arithmetic on score lists and per-host sums over
  columns of scores.
- `Ordering`: the descending sort.
- `WeightHandler`: the weighing pass. It comes in two forms: a reference
  definition of every host's final weight, and the pass as the scheduler runs
  it, accumulating weights weigher by weigher.
- `Ranking`: general properties of the ranking — who comes first and last,
  linearity in the multipliers, the effect of negated ratios, and where hosts
  lacking a metric end up.
- `ResourceScenarios`, `SettingScenarios` and `MetricsScenarios`: the
  concrete scenarios.

Weights are exact `real`s.

## Model

| member | source | states |
|---|---|---|
| `Hosts.ToDict` | nova/tests/scheduler/test_weights.py:31-36 | the mapping has exactly the keys `weight` and `host`, holding the weight and the host name |
| `Hosts.ToDictExact` | nova/tests/scheduler/test_weights.py:31-36 | the diagnostic mapping holds exactly the weight and the host name: both read back from it, and two weighed hosts map alike exactly when they agree on weight and host name |
| `Normalization.Normalize` | nova/tests/scheduler/test_weights.py:108-132 | normalised scores lie in [0, 1], one per raw score; all-equal raw scores give 0; otherwise a score is 0 exactly at the minimum and 1 exactly at the maximum, and the order between any two raw scores is kept, in both directions; negative raw scores are allowed |
| `Normalization.NormalizeNegate` | nova/tests/scheduler/test_weights.py:181-188 | when the raw scores are not all equal, negating them turns every normalised score x into 1 - x (all-equal raw scores normalise to 0 either way) |
| `Decimal.RenderParseRoundTrip` | nova/tests/scheduler/test_weights.py:215-222 | every canonically spelled decimal numeral, signed or not, with or without a fraction, parses back to itself and to the number it denotes |
| `Decimal.ParseFloat` | nova/tests/scheduler/test_weights.py:199-206 | a ratio text is accepted exactly when, once surrounding whitespace is stripped, it is numeral text: an optional `+` or `-`, then digits with at most one `.` and at least one digit |
| `Decimal.NumeralAccepted` | nova/tests/scheduler/test_weights.py:215-231 | the numeral parser accepts exactly the numeral texts, including `007`, `1.`, `.5` and `+1`, and rejects every other text, such as `.`, `--1`, `1.2.3` and `1-2` |
| `Decimal.NumeralValue` | nova/tests/scheduler/test_weights.py:215-222 | a sign, digits, an optional `.` and digits parse as the numeral with that sign, the value of the leading digits as whole part and the trailing digits as fraction, leading zeros included |
| `Decimal.FloatValue` | nova/tests/scheduler/test_weights.py:215-222 | such text, spelled canonically or not, parses to the number its sign, whole digits and fraction digits denote |
| `Decimal.ParseFloatRejects` | nova/tests/scheduler/test_weights.py:199-206 | a ratio text that is blank, or that holds a character no numeral can contain once surrounding whitespace is stripped, is rejected |
| `MetricsSetting.ParseEntry` | nova/tests/scheduler/test_weights.py:215-231 | an entry is kept exactly when it has an `=`, a non-blank name before the first `=`, and a ratio after it that parses; the kept pair is the trimmed name and that ratio |
| `MetricsSetting.ParseSetting` | nova/tests/scheduler/test_weights.py:208-231 | the parsed setting never has more pairs than there are entries; which pairs it keeps and in what order are stated by the two rows below |
| `MetricsSetting.ParseSettingMembers` | nova/tests/scheduler/test_weights.py:208-214 | the parsed setting holds exactly the pairs of the entries that parse, nothing else |
| `MetricsSetting.ParseSettingConcat` | nova/tests/scheduler/test_weights.py:223-231 | parsing a list is parsing its parts and concatenating: a dropped entry never disturbs its neighbours, and the order of the kept pairs is preserved |
| `MetricsSetting.EntryRoundTrip` | nova/tests/scheduler/test_weights.py:215-222 | `name=ratio`, with a trimmed name free of `=` and a canonically spelled ratio, parses to that name and the ratio's value |
| `Weighers.MetricsScore` | nova/tests/scheduler/test_weights.py:233-251 | a host with every configured metric scores the sum of value times ratio; a host lacking one scores the penalty when metrics are not required, and otherwise fails naming the host and the first metric it lacks |
| `Weighers.RawScore` | nova/tests/scheduler/test_weights.py:68-79 | the RAM and I/O weighers always score a host; only a metrics weigher with metrics required can fail, and only on a host lacking a configured metric |
| `Weighers.RawScores` | nova/tests/scheduler/test_weights.py:233-239 | a weigher's pass succeeds exactly when it can score every host, gives the hosts' raw scores in order, and otherwise fails with the error of the first host it cannot score |
| `Weighers.NegateRatiosScore` | nova/tests/scheduler/test_weights.py:181-188 | flipping the sign of every ratio flips the sign of the metrics score of every complete host |
| `Ordering.SortByWeight` | nova/tests/scheduler/test_weights.py:121-132 | the result is ordered heaviest first and is a permutation of the input |
| `Ordering.WinnerFirst` | nova/tests/scheduler/test_weights.py:58-61 | a host strictly heavier than all others is first |
| `Ordering.LoserLast` | nova/tests/scheduler/test_weights.py:129-132 | a host strictly lighter than all others is last |
| `Ordering.FirstIsHeaviest` | nova/tests/scheduler/test_weights.py:58-61 | the first host is one of the candidates and is at least as heavy as every candidate |
| `WeightHandler.GetWeighedObjects` | nova/tests/scheduler/test_weights.py:58-61 | the pass succeeds exactly when every weigher can score every host; the result is sorted heaviest first and is a permutation of the hosts paired with their reference weights (the sum over weighers of normalised raw score times multiplier); a failure is the first failure in weigher order, then host order |
| `WeightHandler.TotalsCorrect` | nova/tests/scheduler/test_weights.py:58-61 | weigher-by-weigher accumulation from 0 equals the reference weights when every weigher succeeds, and otherwise stops with the first failure |
| `WeightHandler.FailureStops` | nova/tests/scheduler/test_weights.py:233-239 | once a weigher fails, later weighers never run and the pass ends with that failure |
| `WeightHandler.ScoreAll` | nova/tests/scheduler/test_weights.py:233-239 | scoring hosts one at a time, stopping at the first that cannot be scored, gives exactly the weigher's pass |
| `WeightHandler.WeighObjects` | nova/tests/scheduler/test_weights.py:58-61 | accumulating weights in one running list, weigher by weigher, then sorting, gives exactly the pass |
| `Ranking.SinglePass` | nova/tests/scheduler/test_weights.py:58-61 | with one weigher the result is the hosts sorted by normalised raw score times the multiplier |
| `Ranking.TopHost` | nova/tests/scheduler/test_weights.py:68-79 | with at least two hosts and a positive multiplier, the host with the strictly largest raw score comes first with weight equal to the multiplier (a lone host normalises to 0 and weighs 0) |
| `Ranking.BottomHost` | nova/tests/scheduler/test_weights.py:108-132 | for any non-empty candidate list and a positive multiplier, the host with the strictly smallest raw score comes last with weight 0 |
| `Ranking.TopHostInverted` | nova/tests/scheduler/test_weights.py:325-328 | for any non-empty candidate list and a negative multiplier, the host with the strictly smallest raw score comes first with weight 0 |
| `Ranking.LoneHost` | nova/tests/scheduler/test_weights.py:108-132 | a pass over a single host succeeds and gives it weight 0, whatever the multiplier, since its raw scores are all equal |
| `Ranking.ZeroMultipliers` | nova/tests/scheduler/test_weights.py:81-92 | when every weigher can score every host and every multiplier is 0, the pass succeeds and every host weighs 0, whatever the raw scores |
| `Ranking.MultipliersScale` | nova/tests/scheduler/test_weights.py:94-106 | multiplying every multiplier by c multiplies every host's weight by c |
| `Ranking.NegatedRatiosMirror` | nova/tests/scheduler/test_weights.py:181-188 | when every host reports every configured metric and their metric sums are not all equal, negating every ratio makes each host's new weight the multiplier minus its old weight, which reverses the order of any two hosts' weights |
| `Ranking.MissingMetricRanksLast` | nova/tests/scheduler/test_weights.py:241-251 | with metrics not required, a positive multiplier and a penalty below every complete host's score, the pass succeeds and no host lacking a metric ranks above a host that has them all |
| `Ranking.MissingMetricRanksFirst` | nova/tests/scheduler/test_weights.py:241-251 | with metrics not required, a negative multiplier and a penalty below every complete host's score, the pass succeeds and no host that has every metric ranks above a host lacking one: the penalised hosts come first |
| `Ranking.RequiredMetricFails` | nova/tests/scheduler/test_weights.py:233-239 | with metrics required, the pass fails on the first host lacking a configured metric, naming it and the first metric it lacks |
| `ResourceScenarios.RamSpreadsByDefault` | nova/tests/scheduler/test_weights.py:68-79 | free memory 512, 1024, 3072, 8192 and the default multiplier: host4 first with weight 1 |
| `ResourceScenarios.RamZeroMultiplier` | nova/tests/scheduler/test_weights.py:81-92 | RAM multiplier 0: the first host weighs 0 |
| `ResourceScenarios.RamDoubleMultiplier` | nova/tests/scheduler/test_weights.py:94-106 | RAM multiplier 2: host4 first with weight 2 |
| `ResourceScenarios.RamNegativeFreeMemoryWinner` | nova/tests/scheduler/test_weights.py:108-128 | with a fifth host at -512 MB free, host4 is still first with weight 1 |
| `ResourceScenarios.RamNegativeFreeMemoryLoser` | nova/tests/scheduler/test_weights.py:129-132 | the host at -512 MB free comes last with weight 0 |
| `ResourceScenarios.IoOpsAvoidsLoadByDefault` | nova/tests/scheduler/test_weights.py:325-328 | I/O operations 1, 2, 0, 4 and the default multiplier -1: host3 first with weight 0 |
| `ResourceScenarios.IoOpsZeroMultiplier` | nova/tests/scheduler/test_weights.py:330-334 | I/O multiplier 0: the first host weighs 0 |
| `ResourceScenarios.IoOpsPositiveMultiplier` | nova/tests/scheduler/test_weights.py:336-339 | I/O multiplier 2: host4 first with weight 2 |
| `ResourceScenarios.DictConversion` | nova/tests/scheduler/test_weights.py:31-36 | the mapping of a weighed `somehost` is exactly `{weight, host: somehost}` |
| `SettingScenarios.SettingFooOne` | nova/tests/scheduler/test_weights.py:217-219 | `foo=1` parses to exactly `(foo, 1.0)` |
| `SettingScenarios.SettingFooOneBar` | nova/tests/scheduler/test_weights.py:220-222 | `foo=1`, `bar=-2.1` parse to `(foo, 1.0)`, `(bar, -2.1)` |
| `SettingScenarios.SettingMalformedFirst` | nova/tests/scheduler/test_weights.py:223-231 | `foo=a1`, `foo` and `=5` are dropped and `bar=-2.1` kept |
| `SettingScenarios.RatioLeadingZeros` | nova/tests/scheduler/test_weights.py:215-222 | `007` parses to 7 |
| `SettingScenarios.RatioTrailingDot` | nova/tests/scheduler/test_weights.py:215-222 | `1.` parses to 1 |
| `SettingScenarios.RatioLeadingDot` | nova/tests/scheduler/test_weights.py:215-222 | `.5` parses to 0.5 |
| `SettingScenarios.RatioPlusSign` | nova/tests/scheduler/test_weights.py:215-222 | `+1` parses to 1 |
| `SettingScenarios.RatioLoneDot` | nova/tests/scheduler/test_weights.py:223-225 | `.` is rejected |
| `SettingScenarios.RatioDoubleSign` | nova/tests/scheduler/test_weights.py:223-225 | `--1` is rejected |
| `SettingScenarios.RatioTwoDots` | nova/tests/scheduler/test_weights.py:223-225 | `1.2.3` is rejected |
| `SettingScenarios.RatioInnerSign` | nova/tests/scheduler/test_weights.py:223-225 | `1-2` is rejected |
| `SettingScenarios.SettingMalformedSecond` | nova/tests/scheduler/test_weights.py:190-206 | `bar` and `bar = 2.0t` are dropped and `foo=0.0001` kept |
| `MetricsScenarios.SingleResource` | nova/tests/scheduler/test_weights.py:163-170 | `foo=1`: host4 first with weight 1 |
| `MetricsScenarios.MultipleResource` | nova/tests/scheduler/test_weights.py:172-179 | `foo=0.0001`, `bar=1`: host2 first with weight 1 |
| `MetricsScenarios.NegativeRatio` | nova/tests/scheduler/test_weights.py:181-188 | `foo=-1`: host1 first with weight 1 |
| `MetricsScenarios.MissingRatio` | nova/tests/scheduler/test_weights.py:190-197 | `foo=0.0001`, `bar`: host4 first with weight 1 |
| `MetricsScenarios.WrongRatio` | nova/tests/scheduler/test_weights.py:199-206 | `foo=0.0001`, `bar = 2.0t`: host4 first with weight 1 |
| `MetricsScenarios.MetricNotFoundRequired` | nova/tests/scheduler/test_weights.py:233-239 | `foo=1`, `zot=2` with metrics required: the pass fails with metric `zot` not found on host1 |
| `MetricsScenarios.MetricNotFoundNonRequired` | nova/tests/scheduler/test_weights.py:241-251 | `foo=0.0001`, `zot=-1` with metrics not required: host5 first with weight 1 |

## Left out

- Weigher discovery and loading by class name (`all_weighers`,
  `get_matching_classes`, nova/tests/scheduler/test_weights.py:38-44 and
  55-56). This is dynamic import; the model takes the list of configured
  weighers as a value.
- The host manager, the database fixtures and the request context
  (nova/tests/scheduler/test_weights.py:50-53, 64-66). Hosts are given as plain
  records: name, free memory, I/O operation count and a metrics map.
- Decoding the JSON `stats` blob into the I/O operation count, and skipping the
  broken `service=None` fixture entry
  (nova/tests/scheduler/test_weights.py:262, 290). Both belong to the host-state
  collaborator.
- IEEE-754 floating point. Weights, ratios and metric values are exact reals.
  The weights the scenarios assert (0, 1 and 2) are exact in both. The ratios
  -2.1 and 0.0001 are not exact doubles, but the scenarios only compare a
  parsed ratio with the same literal, and the winners and weights they assert
  come out the same.
- Python's `float()` in full. `Decimal` accepts an optional sign, digits and an
  optional fraction, with surrounding whitespace. Exponents, `inf`, `nan` and
  underscores are not modelled.
- Decimal.IsSpace: only space and tab through carriage return count as
  surrounding whitespace. Python's `strip()` also removes the separators
  `\x1c` to `\x1f` and non-ASCII whitespace, so a ratio padded with
  those is accepted by the scheduler but rejected by the model.
- The per-weigher override of the normalisation bounds. The three weighers
  derive their bounds from the data.
- Ordering.SortByWeight: does not state which of several hosts of equal weight
  comes first. Insertion keeps the input order of equal hosts, but no lemma says
  so, and the scenarios never look at ties.
- Hosts.ToDict: the weight is a `real`. The scenario at
  nova/tests/scheduler/test_weights.py:31-36 stores an arbitrary object as the
  weight and reads it back unchanged; the model only covers numeric weights.
- Weighers.MetricsScore: the penalty given to a host lacking a metric that is
  not required is a parameter of the weigher (default -10000.0). The scheduler
  takes it from configuration.

A host that lacks a metric which is not required is not modelled as
contributing 0. With six hosts, four of them lacking `zot`, the scenario at
nova/tests/scheduler/test_weights.py:241-251 expects host5 (score 0.0768 - 1)
to win. If a missing `zot` contributed 0, host4 (score 0.8192) would win
instead. A missing metric that is not required therefore does not count as 0;
the host gets the penalty score. With a positive multiplier and a penalty below
every complete host's score, that ranks it below every complete host; with a
negative multiplier the order turns over and the penalised hosts come first.

=== FILE: decimal.dfy ===
/** The numeric text accepted as a metric ratio: surrounding whitespace, an
    optional sign, decimal digits and an optional fraction. This is the part of
    Python's `float()` that the scheduler's configuration relies on; exponents,
    `inf` and `nan` are not accepted here. */
module Decimal {
  import opened Wrappers

  /** Whitespace stripped around a ratio: space, and tab through carriage
      return. */
  predicate IsSpace(c: char) {
    c == ' ' || 9 <= c as int <= 13
  }

  predicate IsDigit(c: char) {
    '0' <= c <= '9'
  }

  predicate AllDigits(s: string) {
    forall i :: 0 <= i < |s| ==> IsDigit(s[i])
  }

  /** A character that can occur in an accepted numeral. */
  predicate IsNumeralChar(c: char) {
    IsDigit(c) || c == '.' || c == '+' || c == '-'
  }

  /** Drops leading whitespace. */
  function TrimStart(s: string): (r: string)
    ensures |r| <= |s| && r == s[|s| - |r|..]
    ensures forall c :: c in r ==> c in s
    ensures forall k :: 0 <= k < |s| - |r| ==> IsSpace(s[k])
    ensures r == [] || !IsSpace(r[0])
  {
    if s != [] && IsSpace(s[0]) then TrimStart(s[1..]) else s
  }

  /** Drops trailing whitespace. */
  function TrimEnd(s: string): (r: string)
    ensures |r| <= |s| && r == s[..|r|]
    ensures forall c :: c in r ==> c in s
    ensures forall k :: |r| <= k < |s| ==> IsSpace(s[k])
    ensures r == [] || !IsSpace(r[|r| - 1])
  {
    if s != [] && IsSpace(s[|s| - 1]) then TrimEnd(s[..|s| - 1]) else s
  }

  /** Strips `IsSpace` characters (space, and tab through carriage return)
      from both ends: the result is the longest inner slice that neither
      starts nor ends with such a character, and a string that already has
      none at its ends is returned unchanged. */
  function Trim(s: string): (r: string)
    ensures |r| <= |s|
    ensures forall c :: c in r ==> c in s
    ensures r == [] || (!IsSpace(r[0]) && !IsSpace(r[|r| - 1]))
    ensures (forall k :: 0 <= k < |s| ==> IsSpace(s[k])) ==> r == []
    ensures s == [] || (!IsSpace(s[0]) && !IsSpace(s[|s| - 1])) ==> r == s
  {
    TrimEnd(TrimStart(s))
  }

  /** Position of the first `c` in `s`, or `|s|` when there is none. */
  function IndexOf(s: string, c: char): (r: nat)
    ensures r <= |s|
    ensures r < |s| ==> s[r] == c
    ensures forall k :: 0 <= k < r ==> s[k] != c
  {
    if s == [] then 0
    else if s[0] == c then 0
    else 1 + IndexOf(s[1..], c)
  }

  function DigitValue(c: char): nat
    requires IsDigit(c)
  {
    c as int - '0' as int
  }

  function DigitChar(d: nat): (c: char)
    requires d < 10
    ensures IsDigit(c) && DigitValue(c) == d
  {
    ('0' as int + d) as char
  }

  /** The natural number a string of decimal digits denotes (0 for the empty
      string). */
  function DigitsValue(s: string): nat
    requires AllDigits(s)
  {
    if s == [] then 0 else DigitsValue(s[..|s| - 1]) * 10 + DigitValue(s[|s| - 1])
  }

  /** The shortest decimal spelling of `n`. */
  function NatToDigits(n: nat): (s: string)
    ensures 1 <= |s| && AllDigits(s)
  {
    if n < 10 then [DigitChar(n)] else NatToDigits(n / 10) + [DigitChar(n % 10)]
  }

  lemma {:induction false} DigitsRoundTrip(n: nat)
    ensures DigitsValue(NatToDigits(n)) == n
  {
    var s := NatToDigits(n);
    if n >= 10 {
      assert s[..|s| - 1] == NatToDigits(n / 10);
      DigitsRoundTrip(n / 10);
    }
  }

  function Pow10(k: nat): (p: nat)
    ensures p >= 1
  {
    if k == 0 then 1 else 10 * Pow10(k - 1)
  }

  /** A finite decimal numeral: sign, whole part and fraction digits. */
  datatype Numeral = Numeral(negative: bool, whole: nat, fraction: string)

  predicate WellFormed(d: Numeral) {
    AllDigits(d.fraction)
  }

  /** The real number a numeral denotes. */
  function ValueOf(d: Numeral): real
    requires WellFormed(d)
  {
    var magnitude := d.whole as real + DigitsValue(d.fraction) as real / Pow10(|d.fraction|) as real;
    if d.negative then -magnitude else magnitude
  }

  /** The canonical spelling of a numeral, as an operator would write it. */
  function Render(d: Numeral): string
    requires WellFormed(d)
  {
    (if d.negative then "-" else "") + UnsignedText(d.whole, d.fraction)
  }

  /** Digits with an optional fraction: `12`, `12.`, `12.5`, `.5`; at least
      one digit overall. */
  function ParseUnsigned(u: string): (r: Option<Numeral>)
    ensures r.Some? ==> WellFormed(r.value) && !r.value.negative
  {
    var i := IndexOf(u, '.');
    if i == |u| then
      if u != [] && AllDigits(u) then Some(Numeral(false, DigitsValue(u), "")) else None
    else
      var w, f := u[..i], u[i + 1..];
      if AllDigits(w) && AllDigits(f) && |w| + |f| > 0
      then Some(Numeral(false, DigitsValue(w), f))
      else None
  }

  /** An optional `+` or `-` followed by an unsigned numeral. */
  function ParseNumeral(t: string): (r: Option<Numeral>)
    ensures r.Some? ==> WellFormed(r.value)
  {
    if t != [] && (t[0] == '-' || t[0] == '+') then
      var n :- ParseUnsigned(t[1..]);
      Some(n.(negative := t[0] == '-'))
    else ParseUnsigned(t)
  }

  /** The ratio parser: Python's `float()` on the decimal subset, after
      stripping surrounding whitespace. */
  function ParseFloat(s: string): (r: Option<real>)
    ensures r.Some? <==> IsNumeralText(Trim(s))
  {
    NumeralAccepted(Trim(s));
    var n :- ParseNumeral(Trim(s));
    Some(ValueOf(n))
  }

  /** Text holding a character that cannot belong to a numeral (a letter, an
      inner space), or holding nothing but whitespace, is rejected. */
  lemma ParseFloatRejects(s: string)
    requires Trim(s) == [] || exists k :: 0 <= k < |Trim(s)| && !IsNumeralChar(Trim(s)[k])
    ensures ParseFloat(s) == None
  {
    var t := Trim(s);
    if t != [] {
      var k :| 0 <= k < |t| && !IsNumeralChar(t[k]);
      if t[0] == '-' || t[0] == '+' {
        assert t[1..][k - 1] == t[k];
        UnsignedRejects(t[1..], k - 1);
      } else {
        UnsignedRejects(t, k);
      }
    }
  }

  lemma UnsignedRejects(u: string, k: nat)
    requires k < |u| && !IsNumeralChar(u[k])
    ensures ParseUnsigned(u) == None
  {
    var i := IndexOf(u, '.');
    if i < |u| {
      if k < i {
        assert u[..i][k] == u[k];
      } else {
        assert u[i + 1..][k - i - 1] == u[k];
      }
    }
  }

  /** Every canonically spelled numeral parses back to itself, so in
      particular to the value it denotes. */
  lemma {:induction false} RenderParseRoundTrip(d: Numeral)
    requires WellFormed(d)
    ensures ParseNumeral(Render(d)) == Some(d)
    ensures ParseFloat(Render(d)) == Some(ValueOf(d))
  {
    var u := UnsignedText(d.whole, d.fraction);
    UnsignedRoundTrip(d.whole, d.fraction);
    var t := Render(d);
    if d.negative {
      assert t == "-" + u;
      assert t[0] == '-' && t[|t| - 1] == u[|u| - 1];
      SignedText(u, d.(negative := false));
    } else {
      assert t == u;
      UnsignedTextParse(u, d);
    }
    assert !IsSpace(t[0]) && !IsSpace(t[|t| - 1]);
    assert Trim(t) == t;
    FloatOfNumeral(t, d);
  }

  lemma FloatOfNumeral(s: string, n: Numeral)
    requires ParseNumeral(Trim(s)) == Some(n)
    ensures ParseFloat(s) == Some(ValueOf(n))
  {
  }

  lemma SignedText(u: string, n: Numeral)
    requires u != [] && IsDigit(u[|u| - 1])
    requires ParseUnsigned(u) == Some(n)
    ensures ParseNumeral("-" + u) == Some(n.(negative := true))
  {
    var t := "-" + u;
    assert t[1..] == u;
  }

  lemma UnsignedTextParse(u: string, n: Numeral)
    requires u != [] && IsDigit(u[0])
    requires ParseUnsigned(u) == Some(n)
    ensures ParseNumeral(u) == Some(n)
  {
  }

  /** The unsigned part of a canonical spelling: the whole part's digits,
      then a point and the fraction digits when there are any. */
  function UnsignedText(whole: nat, fraction: string): (u: string)
    requires AllDigits(fraction)
    ensures u != [] && IsDigit(u[0]) && IsDigit(u[|u| - 1])
  {
    var n := NatToDigits(whole);
    if fraction == [] then n
    else
      var u := n + "." + fraction;
      assert u[0] == n[0];
      u
  }

  lemma {:induction false} UnsignedRoundTrip(whole: nat, fraction: string)
    requires AllDigits(fraction)
    ensures ParseUnsigned(UnsignedText(whole, fraction)) == Some(Numeral(false, whole, fraction))
  {
    var n := NatToDigits(whole);
    DigitsRoundTrip(whole);
    if fraction == [] {
      NoDotInDigits(n);
    } else {
      var u := n + "." + fraction;
      DotAfterDigits(n, fraction);
      assert u[..|n|] == n;
      assert u[|n| + 1..] == fraction;
    }
  }

  lemma NoDotInDigits(n: string)
    requires AllDigits(n)
    ensures IndexOf(n, '.') == |n|
  {
  }

  lemma DotAfterDigits(n: string, f: string)
    requires AllDigits(n)
    ensures IndexOf(n + "." + f, '.') == |n|
  {
    var u := n + "." + f;
    assert u[|n|] == '.';
  }

  // The numeral grammar, stated without reference to the parser.

  /** Unsigned decimal text: one or more digits, or digits, a single `.` and
      digits with at least one digit on either side of it (`7`, `007`, `1.`,
      `.5`, `2.25`). */
  predicate IsUnsignedText(u: string) {
    (u != [] && AllDigits(u))
    || exists i :: 0 <= i < |u| && u[i] == '.' && AllDigits(u[..i]) && AllDigits(u[i + 1..]) && |u| > 1
  }

  /** Numeral text: unsigned decimal text, optionally preceded by one `+` or
      `-`. */
  predicate IsNumeralText(t: string) {
    IsUnsignedText(t) || (t != [] && (t[0] == '-' || t[0] == '+') && IsUnsignedText(t[1..]))
  }

  /** The unsigned parser accepts exactly the unsigned decimal texts. */
  lemma UnsignedAccepted(u: string)
    ensures ParseUnsigned(u).Some? <==> IsUnsignedText(u)
  {
    var i := IndexOf(u, '.');
    if i < |u| && IsUnsignedText(u) {
      assert !IsDigit(u[i]);
      var j :| 0 <= j < |u| && u[j] == '.' && AllDigits(u[..j]) && AllDigits(u[j + 1..]) && |u| > 1;
    }
  }

  /** Unsigned decimal text never starts with a sign. */
  lemma SignedNotUnsigned(u: string)
    requires u != [] && (u[0] == '-' || u[0] == '+')
    ensures !IsUnsignedText(u)
  {
  }

  /** The numeral parser accepts exactly the numeral texts: `007`, `1.`,
      `.5` and `+1` are accepted, and `.`, `--1`, `1.2.3` and `1-2` are
      not. */
  lemma NumeralAccepted(t: string)
    ensures ParseNumeral(t).Some? <==> IsNumeralText(t)
  {
    if t != [] && (t[0] == '-' || t[0] == '+') {
      SignedNotUnsigned(t);
      UnsignedAccepted(t[1..]);
    } else {
      UnsignedAccepted(t);
    }
  }

  /** Digits `w`, then a `.` when `dot` holds, then digits `f`. */
  function DecimalText(w: string, dot: bool, f: string): string {
    w + (if dot then "." else "") + f
  }

  /** Such text, with at least one digit, is nonempty and neither starts
      with a sign nor starts or ends with whitespace. */
  lemma DecimalTextEnds(w: string, dot: bool, f: string)
    requires AllDigits(w) && AllDigits(f) && |w| + |f| > 0 && (dot || f == [])
    ensures var u := DecimalText(w, dot, f);
      u != [] && (IsDigit(u[0]) || u[0] == '.') && (IsDigit(u[|u| - 1]) || u[|u| - 1] == '.')
  {
    var u := DecimalText(w, dot, f);
    if w != [] {
      assert u[0] == w[0];
    } else if dot {
      assert u[0] == '.';
    }
    if f != [] {
      assert u[|u| - 1] == f[|f| - 1];
    } else if !dot {
      assert u == w;
    }
  }

  /** Digits `w`, an optional `.` and digits `f`, with at least one digit,
      parse as the unsigned numeral with whole part the value of `w` and
      fraction digits `f`: leading zeros of `w` and a missing side of the
      `.` are allowed. */
  lemma UnsignedValue(w: string, dot: bool, f: string)
    requires AllDigits(w) && AllDigits(f) && |w| + |f| > 0 && (dot || f == [])
    ensures ParseUnsigned(DecimalText(w, dot, f)) == Some(Numeral(false, DigitsValue(w), f))
  {
    var u := DecimalText(w, dot, f);
    if dot {
      DotAfterDigits(w, f);
      assert u == w + "." + f;
      assert u[..|w|] == w;
      assert u[|w| + 1..] == f;
    } else {
      assert u == w;
      NoDotInDigits(w);
    }
  }

  /** A sign, digits `w`, an optional `.` and digits `f` denote the numeral
      with that sign, whole part the value of `w` and fraction digits `f`. */
  lemma NumeralValue(sign: string, w: string, dot: bool, f: string)
    requires sign == "" || sign == "+" || sign == "-"
    requires AllDigits(w) && AllDigits(f) && |w| + |f| > 0 && (dot || f == [])
    ensures ParseNumeral(sign + DecimalText(w, dot, f)) == Some(Numeral(sign == "-", DigitsValue(w), f))
  {
    var u := DecimalText(w, dot, f);
    UnsignedValue(w, dot, f);
    DecimalTextEnds(w, dot, f);
    if sign == "" {
      assert sign + u == u;
    } else {
      assert (sign + u)[0] == sign[0] && (sign + u)[1..] == u;
    }
  }

  /** Signed decimal text has no surrounding whitespace to strip. */
  lemma DecimalTrimmed(sign: string, w: string, dot: bool, f: string)
    requires sign == "" || sign == "+" || sign == "-"
    requires AllDigits(w) && AllDigits(f) && |w| + |f| > 0 && (dot || f == [])
    ensures Trim(sign + DecimalText(w, dot, f)) == sign + DecimalText(w, dot, f)
  {
    var u := DecimalText(w, dot, f);
    var t := sign + u;
    DecimalTextEnds(w, dot, f);
    assert t[|t| - 1] == u[|u| - 1];
    assert t[0] == if sign == "" then u[0] else sign[0];
  }

  /** The ratio parser returns the value such text denotes. */
  lemma FloatValue(sign: string, w: string, dot: bool, f: string)
    requires sign == "" || sign == "+" || sign == "-"
    requires AllDigits(w) && AllDigits(f) && |w| + |f| > 0 && (dot || f == [])
    ensures ParseFloat(sign + DecimalText(w, dot, f)) == Some(ValueOf(Numeral(sign == "-", DigitsValue(w), f)))
  {
    NumeralValue(sign, w, dot, f);
    DecimalTrimmed(sign, w, dot, f);
    FloatOfNumeral(sign + DecimalText(w, dot, f), Numeral(sign == "-", DigitsValue(w), f));
  }
}

=== FILE: handler.dfy ===
/** One weighing pass over a candidate list: every weigher scores every host,
    the scores are normalised per weigher, multiplied by the weigher's
    multiplier and summed per host, and the hosts are returned heaviest
    first. */
module WeightHandler {
  import opened Wrappers
  import opened Hosts
  import opened Normalization
  import opened Weighers
  import opened Ordering
  import opened Sums

  /** Pairs each host with its weight. */
  function Weighed(hosts: seq<HostState>, weights: seq<real>): (s: seq<WeighedHost>)
    requires |weights| == |hosts|
    ensures |s| == |hosts|
    ensures forall i :: 0 <= i < |hosts| ==> s[i] == WeighedHost(hosts[i], weights[i])
  {
    seq(|hosts|, i requires 0 <= i < |hosts| => WeighedHost(hosts[i], weights[i]))
  }

  /** What one weigher adds to each host's weight: its normalised raw score
      times the weigher's multiplier. Normalisation bounds come from the
      whole candidate list. */
  function Contribution(w: Weigher, hosts: seq<HostState>): (r: Result<seq<real>, WeighError>)
    ensures r.Success? ==> |r.value| == |hosts|
  {
    var raws :- RawScores(w, hosts);
    Success(Scale(Normalize(raws), w.multiplier))
  }

  /** The running weights after the weighers `ws` have run in order, starting
      from 0.0; the first weigher that fails ends the pass. */
  function Totals(ws: seq<Weigher>, hosts: seq<HostState>): (r: Result<seq<real>, WeighError>)
    ensures r.Success? ==> |r.value| == |hosts|
    decreases |ws|
  {
    if ws == [] then Success(Zeros(|hosts|))
    else
      var prev :- Totals(ws[..|ws| - 1], hosts);
      var c :- Contribution(ws[|ws| - 1], hosts);
      Success(Add(prev, c))
  }

  /** A weighing pass: the hosts with their total weights, heaviest first. An
      empty candidate list gives an empty result without running any weigher. */
  function GetWeighedObjects(ws: seq<Weigher>, hosts: seq<HostState>): (r: Result<seq<WeighedHost>, WeighError>)
    ensures r.Success? <==> AllScorable(ws, hosts)
    ensures r.Success? ==> SortedByWeight(r.value)
    ensures r.Success? ==> multiset(r.value) == multiset(Weighed(hosts, ExpectedWeights(ws, hosts)))
    ensures r.Failure? ==> FirstPassFailure(ws, hosts, r.error)
  {
    TotalsCorrect(ws, hosts);
    if hosts == [] then
      assert Weighed(hosts, ExpectedWeights(ws, hosts)) == [];
      Success([])
    else
      var t :- Totals(ws, hosts);
      Success(SortByWeight(Weighed(hosts, t)))
  }

  // ---------------------------------------------------------------------
  // The reference: what each host's weight should be.

  /** Every weigher can score every host. */
  ghost predicate AllScorable(ws: seq<Weigher>, hosts: seq<HostState>) {
    forall k :: 0 <= k < |ws| ==> Scorable(ws[k], hosts)
  }

  /** Every host's normalised raw score from `w`, times `w`'s multiplier. */
  function Column(w: Weigher, hosts: seq<HostState>): (c: seq<real>)
    requires Scorable(w, hosts)
    ensures |c| == |hosts|
  {
    Scale(Normalize(RawColumn(w, hosts)), w.multiplier)
  }

  /** One column per weigher. */
  function Columns(ws: seq<Weigher>, hosts: seq<HostState>): (m: seq<seq<real>>)
    requires AllScorable(ws, hosts)
    ensures |m| == |ws| && Rectangular(m, |hosts|)
    ensures forall k :: 0 <= k < |ws| ==> m[k] == Column(ws[k], hosts)
  {
    seq(|ws|, k requires 0 <= k < |ws| => Column(ws[k], hosts))
  }

  /** The weight of every host after a full pass: the sum over all weighers
      of its normalised raw score times the weigher's multiplier. */
  function ExpectedWeights(ws: seq<Weigher>, hosts: seq<HostState>): (e: seq<real>)
    requires AllScorable(ws, hosts)
    ensures |e| == |hosts|
  {
    RowSums(Columns(ws, hosts), |hosts|)
  }

  /** Weigher `k` is the first that cannot score some host, and `e` is the
      error of the first host it cannot score. */
  ghost predicate FirstPassFailure(ws: seq<Weigher>, hosts: seq<HostState>, e: WeighError) {
    exists k :: 0 <= k < |ws| && AllScorable(ws[..k], hosts) && FirstFailure(ws[k], hosts, e)
  }

  /** The pass computes the reference weights when every weigher can score
      every host, and otherwise fails with the first failure in weigher
      order, then host order. */
  lemma {:induction false} TotalsCorrect(ws: seq<Weigher>, hosts: seq<HostState>)
    ensures AllScorable(ws, hosts) ==> Totals(ws, hosts) == Success(ExpectedWeights(ws, hosts))
    ensures !AllScorable(ws, hosts) ==> Totals(ws, hosts).Failure? && FirstPassFailure(ws, hosts, Totals(ws, hosts).error)
    decreases |ws|
  {
    if ws == [] {
      assert Columns(ws, hosts) == [];
      RowSumsEmpty(|hosts|);
    } else {
      var n := |ws| - 1;
      var init, w := ws[..n], ws[n];
      TotalsCorrect(init, hosts);
      AllScorableSnoc(ws, hosts);
      if !AllScorable(init, hosts) {
        FailureInPrefix(ws, hosts, Totals(init, hosts).error);
      } else if !Scorable(w, hosts) {
        FailureAtLast(ws, hosts, RawScores(w, hosts).error);
      } else {
        ExpectedSnoc(ws, hosts);
      }
    }
  }

  lemma AllScorableSnoc(ws: seq<Weigher>, hosts: seq<HostState>)
    requires ws != []
    ensures AllScorable(ws, hosts) <==> AllScorable(ws[..|ws| - 1], hosts) && Scorable(ws[|ws| - 1], hosts)
  {
    var init := ws[..|ws| - 1];
    assert forall k :: 0 <= k < |init| ==> init[k] == ws[k];
  }

  lemma FailureInPrefix(ws: seq<Weigher>, hosts: seq<HostState>, e: WeighError)
    requires ws != [] && FirstPassFailure(ws[..|ws| - 1], hosts, e)
    ensures FirstPassFailure(ws, hosts, e)
  {
    var init := ws[..|ws| - 1];
    var k :| 0 <= k < |init| && AllScorable(init[..k], hosts) && FirstFailure(init[k], hosts, e);
    assert init[..k] == ws[..k];
  }

  lemma FailureAtLast(ws: seq<Weigher>, hosts: seq<HostState>, e: WeighError)
    requires ws != [] && AllScorable(ws[..|ws| - 1], hosts) && FirstFailure(ws[|ws| - 1], hosts, e)
    ensures FirstPassFailure(ws, hosts, e)
  {
  }

  /** One more weigher adds its column to every reference weight. */
  lemma ExpectedSnoc(ws: seq<Weigher>, hosts: seq<HostState>)
    requires ws != [] && AllScorable(ws, hosts)
    ensures AllScorable(ws[..|ws| - 1], hosts)
    ensures ExpectedWeights(ws, hosts) == Add(ExpectedWeights(ws[..|ws| - 1], hosts), Column(ws[|ws| - 1], hosts))
  {
    var init, w := ws[..|ws| - 1], ws[|ws| - 1];
    AllScorableSnoc(ws, hosts);
    assert Columns(ws, hosts) == Columns(init, hosts) + [Column(w, hosts)];
    RowSumsSnoc(Columns(init, hosts), Column(w, hosts), |hosts|);
  }

  /** One more step of the pass, when the next weigher succeeds. */
  lemma TotalsNext(ws: seq<Weigher>, k: nat, hosts: seq<HostState>, weights: seq<real>)
    requires k < |ws| && Totals(ws[..k], hosts) == Success(weights)
    requires RawScores(ws[k], hosts).Success?
    ensures Totals(ws[..k + 1], hosts) == Success(Add(weights, Scale(Normalize(RawScores(ws[k], hosts).value), ws[k].multiplier)))
  {
    assert ws[..k + 1][..k] == ws[..k];
  }

  /** One more step of the pass, when the next weigher fails. */
  lemma TotalsNextFails(ws: seq<Weigher>, k: nat, hosts: seq<HostState>, weights: seq<real>)
    requires k < |ws| && Totals(ws[..k], hosts) == Success(weights)
    requires RawScores(ws[k], hosts).Failure?
    ensures Totals(ws[..k + 1], hosts) == Failure(RawScores(ws[k], hosts).error)
  {
    assert ws[..k + 1][..k] == ws[..k];
  }

  /** Once some prefix of the weighers fails, the whole pass fails the same
      way: later weighers never run. */
  lemma {:induction false} FailureStops(ws: seq<Weigher>, m: nat, hosts: seq<HostState>)
    requires m <= |ws| && Totals(ws[..m], hosts).Failure?
    ensures Totals(ws, hosts) == Totals(ws[..m], hosts)
    decreases |ws|
  {
    if m < |ws| {
      var init := ws[..|ws| - 1];
      assert init[..m] == ws[..m];
      FailureStops(init, m, hosts);
    } else {
      assert ws[..m] == ws;
    }
  }

  // ---------------------------------------------------------------------
  // The pass as the scheduler runs it: weights accumulated in place.

  /** One weigher scoring the hosts one by one, stopping at the first host it
      cannot score. */
  method ScoreAll(w: Weigher, hosts: seq<HostState>) returns (r: Result<seq<real>, WeighError>)
    ensures r == RawScores(w, hosts)
  {
    var raws: seq<real> := [];
    var i := 0;
    while i < |hosts|
      invariant 0 <= i <= |hosts|
      invariant |raws| == i
      invariant forall j :: 0 <= j < i ==> RawScore(w, hosts[j]) == Success(raws[j])
    {
      var score := RawScore(w, hosts[i]);
      if score.Failure? {
        assert FirstFailureAt(w, hosts, score.error, i);
        FirstFailureUnique(w, hosts, score.error, RawScores(w, hosts).error, i);
        return Failure(score.error);
      }
      raws := raws + [score.value];
      i := i + 1;
    }
    assert raws == RawColumn(w, hosts);
    r := Success(raws);
  }

  /** Accumulates the weights weigher by weigher into one running list
      starting at 0.0, then sorts. Computes exactly the pass above. */
  method WeighObjects(ws: seq<Weigher>, hosts: seq<HostState>) returns (r: Result<seq<WeighedHost>, WeighError>)
    ensures r == GetWeighedObjects(ws, hosts)
  {
    if hosts == [] {
      return Success([]);
    }
    var weights := Zeros(|hosts|);
    var k := 0;
    while k < |ws|
      invariant 0 <= k <= |ws|
      invariant Totals(ws[..k], hosts) == Success(weights)
    {
      var w := ws[k];
      var raws := ScoreAll(w, hosts);
      if raws.Failure? {
        TotalsNextFails(ws, k, hosts, weights);
        FailureStops(ws, k + 1, hosts);
        return Failure(raws.error);
      }
      TotalsNext(ws, k, hosts, weights);
      weights := Add(weights, Scale(Normalize(raws.value), w.multiplier));
      k := k + 1;
    }
    assert ws[..k] == ws;
    r := Success(SortByWeight(Weighed(hosts, weights)));
  }
}

=== FILE: hosts.dfy ===
/** The records the weighing pipeline works on: the read-only host snapshot it
    is given, and the host paired with its accumulated weight that it returns. */
module Hosts {
  import opened Wrappers

  /** What the weighers read of one compute host: its name, free memory in
      MB (negative when the host is over-committed), the number of in-flight
      I/O operations, and its named metrics. */
  datatype HostState = HostState(
    host: string,
    freeRamMb: int,
    numIoOps: nat,
    metrics: map<string, real>)

  /** A host and the weight it has accumulated over all weighers. */
  datatype WeighedHost = WeighedHost(obj: HostState, weight: real)

  /** A value of the diagnostic mapping. */
  datatype DictValue = WeightValue(weight: real) | HostValue(name: string)

  /** The diagnostic mapping of a weighed host: its weight and the host's
      name under the keys `weight` and `host`, and nothing else. */
  function ToDict(w: WeighedHost): (d: map<string, DictValue>)
    ensures d.Keys == {"weight", "host"}
    ensures d["weight"].WeightValue? && d["weight"].weight == w.weight
    ensures d["host"].HostValue? && d["host"].name == w.obj.host
  {
    map["weight" := WeightValue(w.weight), "host" := HostValue(w.obj.host)]
  }

  /** Reads weight and host name back from a diagnostic mapping. */
  function FromDict(d: map<string, DictValue>): Option<(real, string)> {
    if "weight" in d && "host" in d && d["weight"].WeightValue? && d["host"].HostValue?
    then Some((d["weight"].weight, d["host"].name))
    else None
  }

  /** The mapping carries exactly the weight and the host name: they can be
      read back from it, and two weighed hosts have the same mapping exactly
      when they agree on both, whatever else their snapshots hold. */
  lemma ToDictExact(a: WeighedHost, b: WeighedHost)
    ensures FromDict(ToDict(a)) == Some((a.weight, a.obj.host))
    ensures ToDict(a) == ToDict(b) <==> a.weight == b.weight && a.obj.host == b.obj.host
  {
    if ToDict(a) == ToDict(b) {
      assert ToDict(a)["weight"] == ToDict(b)["weight"];
      assert ToDict(a)["host"] == ToDict(b)["host"];
    }
  }
}

=== FILE: metrics_setting.dfy ===
/** The metrics weigher's `weight_setting` option: a list of `name=ratio`
    entries, parsed leniently. Malformed entries are dropped without error and
    the well-formed ones are kept in order, duplicates included. */
module MetricsSetting {
  import opened Wrappers
  import opened Decimal

  /** Parsed configuration: ordered `(metric name, ratio)` pairs. */
  type Setting = seq<(string, real)>

  /** The text before the first `=` (all of `opt` when there is none). */
  function Key(opt: string): string {
    opt[..IndexOf(opt, '=')]
  }

  /** The text after the first `=` (empty when there is none). */
  function RatioText(opt: string): string {
    var i := IndexOf(opt, '=');
    if i == |opt| then [] else opt[i + 1..]
  }

  /** One entry, split on its first `=`. It is kept exactly when it has an
      `=`, a name that is not blank, and a ratio that parses as a number; the
      name is stored without surrounding whitespace. */
  function ParseEntry(opt: string): (r: Option<(string, real)>)
    ensures r.Some? <==> '=' in opt && Trim(Key(opt)) != [] && ParseFloat(RatioText(opt)).Some?
    ensures r.Some? ==> r.value == (Trim(Key(opt)), ParseFloat(RatioText(opt)).value)
    ensures r.Some? ==> r.value.0 != [] && '=' !in r.value.0
  {
    var i := IndexOf(opt, '=');
    if i == |opt| then None
    else
      var name := Trim(opt[..i]);
      if name == [] then None
      else
        var ratio :- ParseFloat(opt[i + 1..]);
        Some((name, ratio))
  }

  /** Keeps the entries that parse, in their original order. */
  function ParseSetting(opts: seq<string>): (r: Setting)
    ensures |r| <= |opts|
  {
    if opts == [] then []
    else
      var rest := ParseSetting(opts[1..]);
      match ParseEntry(opts[0])
      case None => rest
      case Some(p) => [p] + rest
  }

  /** Exactly the pairs of the entries that parse survive. */
  lemma {:induction false} ParseSettingMembers(opts: seq<string>)
    ensures forall p :: p in ParseSetting(opts) ==> exists o :: o in opts && ParseEntry(o) == Some(p)
    ensures forall o :: o in opts && ParseEntry(o).Some? ==> ParseEntry(o).value in ParseSetting(opts)
  {
    if opts != [] {
      ParseSettingMembers(opts[1..]);
      forall o | o in opts[1..] ensures o in opts {
      }
      forall o | o in opts ensures o == opts[0] || o in opts[1..] {
        var k :| 0 <= k < |opts| && opts[k] == o;
        if k > 0 { assert opts[1..][k - 1] == o; }
      }
    }
  }

  /** Parsing a list is parsing its parts: dropping an entry never disturbs
      its neighbours, and the surviving pairs keep their relative order. */
  lemma {:induction false} ParseSettingConcat(a: seq<string>, b: seq<string>)
    ensures ParseSetting(a + b) == ParseSetting(a) + ParseSetting(b)
  {
    if a == [] {
      assert a + b == b;
    } else {
      var h, t := a[0], a[1..];
      assert a + b == [h] + (t + b);
      assert a == [h] + t;
      ParseSettingConcat(t, b);
      ParseSettingCons(h, t + b);
      ParseSettingCons(h, t);
      var e, x, y := EntryPairs(h), ParseSetting(t), ParseSetting(b);
      AppendAssociative(e, x, y);
    }
  }

  lemma AppendAssociative<T>(e: seq<T>, x: seq<T>, y: seq<T>)
    ensures e + (x + y) == (e + x) + y
  {
  }

  function EntryPairs(opt: string): Setting {
    match ParseEntry(opt)
    case None => []
    case Some(p) => [p]
  }

  lemma ParseSettingCons(opt: string, rest: seq<string>)
    ensures ParseSetting([opt] + rest) == EntryPairs(opt) + ParseSetting(rest)
  {
    var opts := [opt] + rest;
    assert opts[0] == opt && opts[1..] == rest;
  }

  /** The canonical spelling of one entry. */
  function RenderEntry(name: string, ratio: Numeral): string
    requires WellFormed(ratio)
  {
    name + "=" + Render(ratio)
  }

  /** A name without `=` and without surrounding whitespace, followed by `=`
      and a canonically spelled ratio, is parsed back to that pair. */
  lemma EntryRoundTrip(name: string, ratio: Numeral)
    requires WellFormed(ratio)
    requires name != [] && '=' !in name && !IsSpace(name[0]) && !IsSpace(name[|name| - 1])
    ensures ParseEntry(RenderEntry(name, ratio)) == Some((name, ValueOf(ratio)))
  {
    var opt := RenderEntry(name, ratio);
    assert IndexOf(opt, '=') == |name| by {
      assert opt[|name|] == '=';
      assert forall k :: 0 <= k < |name| ==> opt[k] == name[k];
    }
    assert Key(opt) == name by {
      assert opt[..|name|] == name;
    }
    assert RatioText(opt) == Render(ratio) by {
      assert opt[|name| + 1..] == Render(ratio);
    }
    assert Trim(name) == name;
    RenderParseRoundTrip(ratio);
  }
}

=== FILE: normalization.dfy ===
/** Min-max normalisation of one weigher's raw scores over the whole candidate
    set, as done by `normalize` in the scheduler's weights package. */
module Normalization {

  /** Position of a smallest score. */
  function ArgMin(xs: seq<real>): (k: nat)
    requires |xs| > 0
    ensures k < |xs|
    ensures forall i :: 0 <= i < |xs| ==> xs[k] <= xs[i]
  {
    if |xs| == 1 then 0
    else
      var k := 1 + ArgMin(xs[1..]);
      if xs[0] <= xs[k] then 0 else k
  }

  /** Position of a largest score. */
  function ArgMax(xs: seq<real>): (k: nat)
    requires |xs| > 0
    ensures k < |xs|
    ensures forall i :: 0 <= i < |xs| ==> xs[i] <= xs[k]
  {
    if |xs| == 1 then 0
    else
      var k := 1 + ArgMax(xs[1..]);
      if xs[0] >= xs[k] then 0 else k
  }

  function Min(xs: seq<real>): real
    requires |xs| > 0
  {
    xs[ArgMin(xs)]
  }

  function Max(xs: seq<real>): real
    requires |xs| > 0
  {
    xs[ArgMax(xs)]
  }

  predicate AllEqual(xs: seq<real>) {
    forall i, j :: 0 <= i < |xs| && 0 <= j < |xs| ==> xs[i] == xs[j]
  }

  /** Where `x` sits between `lo` and `hi`, as a fraction of the range. */
  function Ratio(x: real, lo: real, hi: real): real
    requires lo < hi
  {
    (x - lo) / (hi - lo)
  }

  /** Rescales scores into [0, 1]: the minimum goes to 0, the maximum to 1,
      and the order of the scores is kept. When all scores are equal (one
      host, say) there is nothing to discriminate and every output is 0.
      Negative scores need no special treatment. */
  function Normalize(xs: seq<real>): (r: seq<real>)
    ensures |r| == |xs|
    ensures forall i :: 0 <= i < |r| ==> 0.0 <= r[i] <= 1.0
    ensures AllEqual(xs) ==> forall i :: 0 <= i < |r| ==> r[i] == 0.0
    ensures !AllEqual(xs) ==> forall i :: 0 <= i < |r| ==> (r[i] == 0.0 <==> xs[i] == Min(xs))
    ensures !AllEqual(xs) ==> forall i :: 0 <= i < |r| ==> (r[i] == 1.0 <==> xs[i] == Max(xs))
    ensures !AllEqual(xs) ==> forall i, j :: 0 <= i < |r| && 0 <= j < |r| ==> (xs[i] < xs[j] <==> r[i] < r[j])
  {
    if |xs| == 0 then []
    else
      var lo, hi := Min(xs), Max(xs);
      AllEqualIffFlat(xs);
      if lo == hi then seq(|xs|, _ => 0.0)
      else
        var r := seq(|xs|, i requires 0 <= i < |xs| => Ratio(xs[i], lo, hi));
        assert forall i :: 0 <= i < |r| ==> 0.0 <= r[i] <= 1.0 && (r[i] == 0.0 <==> xs[i] == lo) && (r[i] == 1.0 <==> xs[i] == hi) by {
          forall i | 0 <= i < |r| ensures 0.0 <= r[i] <= 1.0 && (r[i] == 0.0 <==> xs[i] == lo) && (r[i] == 1.0 <==> xs[i] == hi) {
            RatioBounds(xs[i], lo, hi);
          }
        }
        assert forall i, j :: 0 <= i < |r| && 0 <= j < |r| ==> (xs[i] < xs[j] <==> r[i] < r[j]) by {
          forall i, j | 0 <= i < |r| && 0 <= j < |r| ensures xs[i] < xs[j] <==> r[i] < r[j] {
            RatioMonotone(xs[i], xs[j], lo, hi);
          }
        }
        r
  }

  /** Python's equality test `minval == maxval` is the all-equal test. */
  lemma AllEqualIffFlat(xs: seq<real>)
    requires |xs| > 0
    ensures AllEqual(xs) <==> Min(xs) == Max(xs)
  {
    if !AllEqual(xs) {
      var i, j :| 0 <= i < |xs| && 0 <= j < |xs| && xs[i] != xs[j];
      assert xs[ArgMin(xs)] <= xs[i] <= xs[ArgMax(xs)];
      assert xs[ArgMin(xs)] <= xs[j] <= xs[ArgMax(xs)];
    }
  }

  function Negate(xs: seq<real>): (ys: seq<real>)
    ensures |ys| == |xs|
    ensures forall i :: 0 <= i < |xs| ==> ys[i] == -xs[i]
  {
    seq(|xs|, i requires 0 <= i < |xs| => -xs[i])
  }

  lemma MinUnique(xs: seq<real>, k: nat)
    requires k < |xs| && forall i :: 0 <= i < |xs| ==> xs[k] <= xs[i]
    ensures Min(xs) == xs[k]
  {
    assert xs[ArgMin(xs)] <= xs[k];
  }

  lemma MaxUnique(xs: seq<real>, k: nat)
    requires k < |xs| && forall i :: 0 <= i < |xs| ==> xs[i] <= xs[k]
    ensures Max(xs) == xs[k]
  {
    assert xs[k] <= xs[ArgMax(xs)];
  }

  lemma MinNegate(xs: seq<real>)
    requires |xs| > 0
    ensures Min(Negate(xs)) == -Max(xs)
    ensures Max(Negate(xs)) == -Min(xs)
  {
    var ys := Negate(xs);
    var k, l := ArgMax(xs), ArgMin(xs);
    forall i | 0 <= i < |ys| ensures ys[k] <= ys[i] {
      assert xs[i] <= xs[k];
    }
    MinUnique(ys, k);
    forall i | 0 <= i < |ys| ensures ys[i] <= ys[l] {
      assert xs[l] <= xs[i];
    }
    MaxUnique(ys, l);
  }

  /** Negating every score mirrors the normalised scores: what was at the
      top goes to the bottom and the other way round. */
  lemma {:induction false} NormalizeNegate(xs: seq<real>)
    requires !AllEqual(xs)
    ensures forall i :: 0 <= i < |xs| ==> Normalize(Negate(xs))[i] == 1.0 - Normalize(xs)[i]
  {
    forall i | 0 <= i < |xs| ensures Normalize(Negate(xs))[i] == 1.0 - Normalize(xs)[i] {
      NegateAt(xs, i);
    }
  }

  lemma NegateAt(xs: seq<real>, i: nat)
    requires !AllEqual(xs) && i < |xs|
    ensures Normalize(Negate(xs))[i] == 1.0 - Normalize(xs)[i]
  {
    var ys := Negate(xs);
    MinNegate(xs);
    NegateAllEqual(xs);
    NormalizeAt(ys, i);
    NormalizeAt(xs, i);
    assert ys[i] == -xs[i];
    RatioMirror(xs[i], Min(xs), Max(xs));
  }

  lemma RatioMirror(x: real, lo: real, hi: real)
    requires lo < hi
    ensures Ratio(-x, -hi, -lo) == 1.0 - Ratio(x, lo, hi)
  {
    assert Ratio(-x, -hi, -lo) == (hi - x) / (hi - lo);
    SplitFraction(hi - x, x - lo, hi - lo);
  }

  lemma NegateAllEqual(xs: seq<real>)
    ensures AllEqual(Negate(xs)) <==> AllEqual(xs)
  {
    var ys := Negate(xs);
    if AllEqual(ys) {
      forall i, j | 0 <= i < |xs| && 0 <= j < |xs| ensures xs[i] == xs[j] {
        assert ys[i] == ys[j];
      }
    }
  }

  /** One output of a non-degenerate normalisation. */
  lemma NormalizeAt(xs: seq<real>, i: nat)
    requires !AllEqual(xs) && i < |xs|
    ensures Min(xs) < Max(xs)
    ensures Normalize(xs)[i] == Ratio(xs[i], Min(xs), Max(xs))
  {
    AllEqualIffFlat(xs);
  }

  // Facts of real arithmetic the solver does not find on its own.

  lemma DivideBack(p: real, d: real)
    requires d != 0.0
    ensures (p / d) * d == p
  {
  }

  lemma ProductSign(a: real, d: real)
    requires d > 0.0
    ensures a < 0.0 <==> a * d < 0.0
    ensures a == 0.0 <==> a * d == 0.0
  {
  }

  lemma ZeroFactor(a: real, d: real)
    requires d != 0.0 && a * d == 0.0
    ensures a == 0.0
  {
  }

  lemma RatioBounds(x: real, lo: real, hi: real)
    requires lo <= x <= hi && lo < hi
    ensures 0.0 <= Ratio(x, lo, hi) <= 1.0
    ensures Ratio(x, lo, hi) == 0.0 <==> x == lo
    ensures Ratio(x, lo, hi) == 1.0 <==> x == hi
  {
    var d, v := hi - lo, Ratio(x, lo, hi);
    DivideBack(x - lo, d);
    ProductSign(v, d);
    assert (1.0 - v) * d == hi - x;
    ProductSign(1.0 - v, d);
  }

  lemma RatioMonotone(x: real, y: real, lo: real, hi: real)
    requires lo < hi
    ensures x < y <==> Ratio(x, lo, hi) < Ratio(y, lo, hi)
  {
    var d := hi - lo;
    var u, v := Ratio(x, lo, hi), Ratio(y, lo, hi);
    DivideBack(x - lo, d);
    DivideBack(y - lo, d);
    assert (v - u) * d == y - x;
    ProductSign(v - u, d);
  }

  lemma SplitFraction(p: real, q: real, d: real)
    requires d != 0.0 && p + q == d
    ensures p / d == 1.0 - q / d
  {
    DivideBack(p, d);
    DivideBack(q, d);
    var e := p / d + q / d - 1.0;
    assert e * d == (p / d) * d + (q / d) * d - d;
    ZeroFactor(e, d);
  }
}

=== FILE: ordering.dfy ===
/** The final step of a weighing pass: weighed hosts ordered by weight,
    heaviest first. */
module Ordering {
  import opened Hosts

  predicate SortedByWeight(s: seq<WeighedHost>) {
    forall i, j :: 0 <= i < j < |s| ==> s[i].weight >= s[j].weight
  }

  /** Puts `x` in front of the first element that is not heavier. */
  function Insert(x: WeighedHost, s: seq<WeighedHost>): (r: seq<WeighedHost>)
    requires SortedByWeight(s)
    ensures SortedByWeight(r)
    ensures multiset(r) == multiset{x} + multiset(s)
  {
    if s == [] || x.weight >= s[0].weight then
      PrependSorted(x, s);
      [x] + s
    else
      var tail := s[1..];
      var rest := Insert(x, tail);
      assert s == [s[0]] + tail;
      forall i | 0 <= i < |rest| ensures rest[i].weight <= s[0].weight {
        var e := rest[i];
        assert e in multiset(rest);
        if e != x {
          assert e in multiset(tail);
          var m :| 0 <= m < |tail| && tail[m] == e;
          assert s[m + 1] == e;
        }
      }
      PrependSorted(s[0], rest);
      assert multiset([s[0]] + rest) == multiset{s[0]} + multiset(rest);
      assert multiset(s) == multiset{s[0]} + multiset(tail);
      [s[0]] + rest
  }

  lemma PrependSorted(h: WeighedHost, s: seq<WeighedHost>)
    requires SortedByWeight(s)
    requires s == [] || s[0].weight <= h.weight
    ensures SortedByWeight([h] + s)
  {
    var r := [h] + s;
    forall i, j | 0 <= i < j < |r| ensures r[i].weight >= r[j].weight {
      assert r[j] == s[j - 1];
      if i > 0 { assert r[i] == s[i - 1]; }
    }
  }

  /** Orders hosts by weight, heaviest first, keeping every host exactly
      once. */
  function SortByWeight(s: seq<WeighedHost>): (r: seq<WeighedHost>)
    ensures SortedByWeight(r)
    ensures multiset(r) == multiset(s)
  {
    if s == [] then []
    else
      assert s == [s[0]] + s[1..];
      Insert(s[0], SortByWeight(s[1..]))
  }

  /** A host strictly heavier than every other comes first. */
  lemma WinnerFirst(s: seq<WeighedHost>, k: nat)
    requires k < |s|
    requires forall j :: 0 <= j < |s| && j != k ==> s[j].weight < s[k].weight
    ensures |SortByWeight(s)| == |s| && SortByWeight(s)[0] == s[k]
  {
    var r := SortByWeight(s);
    assert |r| == |multiset(r)| == |s|;
    assert r[0] in multiset(s);
    var j :| 0 <= j < |s| && s[j] == r[0];
    assert s[k] in multiset(r);
    var m :| 0 <= m < |r| && r[m] == s[k];
    assert r[0].weight >= r[m].weight;
  }

  /** A host strictly lighter than every other comes last. */
  lemma LoserLast(s: seq<WeighedHost>, k: nat)
    requires k < |s|
    requires forall j :: 0 <= j < |s| && j != k ==> s[k].weight < s[j].weight
    ensures |SortByWeight(s)| == |s| && SortByWeight(s)[|s| - 1] == s[k]
  {
    var r := SortByWeight(s);
    assert |r| == |multiset(r)| == |s|;
    var last := r[|r| - 1];
    assert last in multiset(s);
    var j :| 0 <= j < |s| && s[j] == last;
    assert s[k] in multiset(r);
    var m :| 0 <= m < |r| && r[m] == s[k];
    if j != k {
      assert false;
    }
  }

  /** The first host is one of the input and is at least as heavy as every
      input host. */
  lemma FirstIsHeaviest(s: seq<WeighedHost>)
    requires s != []
    ensures |SortByWeight(s)| == |s|
    ensures SortByWeight(s)[0] in s
    ensures forall j :: 0 <= j < |s| ==> s[j].weight <= SortByWeight(s)[0].weight
  {
    var r := SortByWeight(s);
    assert |r| == |multiset(r)| == |s|;
    assert r[0] in multiset(s);
    forall j | 0 <= j < |s| ensures s[j].weight <= r[0].weight {
      assert s[j] in multiset(r);
      var m :| 0 <= m < |r| && r[m] == s[j];
    }
  }

  /** Where an element of a permutation came from. */
  lemma SourceOf(s: seq<WeighedHost>, r: seq<WeighedHost>, a: nat) returns (i: nat)
    requires multiset(r) == multiset(s) && a < |r|
    ensures i < |s| && s[i] == r[a]
  {
    assert r[a] in multiset(s);
    i :| 0 <= i < |s| && s[i] == r[a];
  }
}

=== FILE: ranking.dfy ===
/** What a weighing pass promises about the order of its result: who comes
    first and last, how multipliers act, and where hosts lacking a metric
    end up. */
module Ranking {
  import opened Wrappers
  import opened Hosts
  import opened Normalization
  import opened Weighers
  import opened Ordering
  import opened Sums
  import opened MetricsSetting
  import opened WeightHandler

  /** With a single weigher, each host's weight is its normalised raw score
      times the multiplier. */
  lemma SingleWeigher(w: Weigher, hosts: seq<HostState>)
    requires Scorable(w, hosts)
    ensures AllScorable([w], hosts)
    ensures ExpectedWeights([w], hosts) == Column(w, hosts)
  {
    assert AllScorable([w], hosts);
    assert Columns([w], hosts) == [Column(w, hosts)];
    RowSumsSingle(Column(w, hosts));
  }

  /** The pass with a single weigher that can score every host sorts the
      hosts by their scaled normalised raw scores. */
  lemma SinglePass(w: Weigher, hosts: seq<HostState>)
    requires Scorable(w, hosts)
    ensures GetWeighedObjects([w], hosts) == Success(SortByWeight(Weighed(hosts, Column(w, hosts))))
  {
    SingleWeigher(w, hosts);
    TotalsCorrect([w], hosts);
    if hosts == [] {
      assert Weighed(hosts, Column(w, hosts)) == [];
    }
  }

  /** A positive multiplier keeps the order of the raw scores, a negative
      one reverses it. */
  lemma ScaledOrder(xs: seq<real>, m: real, i: nat, j: nat)
    requires i < |xs| && j < |xs| && xs[i] < xs[j]
    ensures var e := Scale(Normalize(xs), m);
      (m > 0.0 ==> e[i] < e[j]) && (m < 0.0 ==> e[i] > e[j])
  {
    assert !AllEqual(xs);
    ScaleOrder(Normalize(xs), m, i, j);
  }

  /** The strict maximum of the raw scores normalises to 1 and so weighs
      exactly the multiplier; with a positive multiplier every other host
      weighs less. */
  lemma ScaledTop(xs: seq<real>, m: real, k: nat)
    requires |xs| >= 2 && k < |xs|
    requires forall j :: 0 <= j < |xs| && j != k ==> xs[j] < xs[k]
    ensures var e := Scale(Normalize(xs), m);
      && e[k] == m
      && (m > 0.0 ==> forall j :: 0 <= j < |xs| && j != k ==> e[j] < e[k])
  {
    var n := Normalize(xs);
    var other := if k == 0 then 1 else 0;
    assert xs[other] < xs[k];
    MaxUnique(xs, k);
    assert n[k] == 1.0;
    ScaleOne(n, m, k);
    forall j | 0 <= j < |xs| && j != k ensures m > 0.0 ==> Scale(n, m)[j] < Scale(n, m)[k] {
      ScaledOrder(xs, m, j, k);
    }
  }

  /** The strict minimum of the raw scores normalises to 0 and so weighs 0;
      a positive multiplier puts every other host above it, a negative one
      below it. */
  lemma ScaledBottom(xs: seq<real>, m: real, k: nat)
    requires |xs| >= 2 && k < |xs|
    requires forall j :: 0 <= j < |xs| && j != k ==> xs[k] < xs[j]
    ensures var e := Scale(Normalize(xs), m);
      && e[k] == 0.0
      && (m > 0.0 ==> forall j :: 0 <= j < |xs| && j != k ==> e[k] < e[j])
      && (m < 0.0 ==> forall j :: 0 <= j < |xs| && j != k ==> e[j] < e[k])
  {
    var n := Normalize(xs);
    var other := if k == 0 then 1 else 0;
    assert xs[k] < xs[other];
    MinUnique(xs, k);
    assert n[k] == 0.0;
    ScaleZero(n, m, k);
    forall j | 0 <= j < |xs| && j != k
      ensures (m > 0.0 ==> Scale(n, m)[k] < Scale(n, m)[j]) && (m < 0.0 ==> Scale(n, m)[j] < Scale(n, m)[k])
    {
      ScaledOrder(xs, m, k, j);
    }
  }

  /** A host with the strictly largest raw score comes first with weight
      equal to the multiplier, when the multiplier is positive. */
  lemma TopHost(w: Weigher, hosts: seq<HostState>, k: nat)
    requires Scorable(w, hosts) && |hosts| >= 2 && k < |hosts| && w.multiplier > 0.0
    requires forall j :: 0 <= j < |hosts| && j != k ==> RawColumn(w, hosts)[j] < RawColumn(w, hosts)[k]
    ensures GetWeighedObjects([w], hosts).Success?
    ensures GetWeighedObjects([w], hosts).value[0] == WeighedHost(hosts[k], w.multiplier)
  {
    var raws := RawColumn(w, hosts);
    var p := Weighed(hosts, Column(w, hosts));
    ScaledTop(raws, w.multiplier, k);
    assert forall j :: 0 <= j < |p| && j != k ==> p[j].weight < p[k].weight;
    WinnerFirst(p, k);
    assert p[k] == WeighedHost(hosts[k], w.multiplier);
    SinglePass(w, hosts);
  }

  /** A host with the strictly smallest raw score comes last with weight 0,
      when the multiplier is positive. */
  lemma BottomHost(w: Weigher, hosts: seq<HostState>, k: nat)
    requires Scorable(w, hosts) && 1 <= |hosts| && k < |hosts| && w.multiplier > 0.0
    requires forall j :: 0 <= j < |hosts| && j != k ==> RawColumn(w, hosts)[k] < RawColumn(w, hosts)[j]
    ensures GetWeighedObjects([w], hosts).Success?
    ensures |GetWeighedObjects([w], hosts).value| == |hosts|
    ensures GetWeighedObjects([w], hosts).value[|hosts| - 1] == WeighedHost(hosts[k], 0.0)
  {
    if |hosts| == 1 {
      LoneHost(w, hosts);
    } else {
      var p := Weighed(hosts, Column(w, hosts));
      SortedLoser(w, hosts, k);
      SinglePass(w, hosts);
      assert GetWeighedObjects([w], hosts).value == SortByWeight(p);
    }
  }

  /** A lone host normalises to 0, so it weighs 0 whatever the multiplier. */
  lemma LoneHost(w: Weigher, hosts: seq<HostState>)
    requires Scorable(w, hosts) && |hosts| == 1
    ensures GetWeighedObjects([w], hosts) == Success([WeighedHost(hosts[0], 0.0)])
  {
    var raws := RawColumn(w, hosts);
    assert AllEqual(raws);
    assert Normalize(raws) == [0.0];
    assert Column(w, hosts)[0] == 0.0 * w.multiplier == 0.0;
    var p := Weighed(hosts, Column(w, hosts));
    assert |p| == 1 && p[0] == WeighedHost(hosts[0], 0.0);
    assert p == [WeighedHost(hosts[0], 0.0)];
    var r := SortByWeight(p);
    assert |r| == |multiset(r)| == 1;
    assert r[0] in multiset(p);
    assert r == p;
    SinglePass(w, hosts);
  }

  lemma SortedLoser(w: Weigher, hosts: seq<HostState>, k: nat)
    requires Scorable(w, hosts) && |hosts| >= 2 && k < |hosts| && w.multiplier > 0.0
    requires forall j :: 0 <= j < |hosts| && j != k ==> RawColumn(w, hosts)[k] < RawColumn(w, hosts)[j]
    ensures |SortByWeight(Weighed(hosts, Column(w, hosts)))| == |hosts|
    ensures SortByWeight(Weighed(hosts, Column(w, hosts)))[|hosts| - 1] == WeighedHost(hosts[k], 0.0)
  {
    var p := Weighed(hosts, Column(w, hosts));
    assert p[k] == WeighedHost(hosts[k], 0.0) && forall j :: 0 <= j < |p| && j != k ==> p[k].weight < p[j].weight by {
      ScaledBottom(RawColumn(w, hosts), w.multiplier, k);
    }
    LoserLast(p, k);
  }

  /** With a negative multiplier the host with the strictly smallest raw
      score comes first, with weight 0. */
  lemma TopHostInverted(w: Weigher, hosts: seq<HostState>, k: nat)
    requires Scorable(w, hosts) && 1 <= |hosts| && k < |hosts| && w.multiplier < 0.0
    requires forall j :: 0 <= j < |hosts| && j != k ==> RawColumn(w, hosts)[k] < RawColumn(w, hosts)[j]
    ensures GetWeighedObjects([w], hosts).Success?
    ensures GetWeighedObjects([w], hosts).value[0] == WeighedHost(hosts[k], 0.0)
  {
    if |hosts| == 1 {
      LoneHost(w, hosts);
    } else {
      var raws := RawColumn(w, hosts);
      var p := Weighed(hosts, Column(w, hosts));
      ScaledBottom(raws, w.multiplier, k);
      assert forall j :: 0 <= j < |p| && j != k ==> p[j].weight < p[k].weight;
      WinnerFirst(p, k);
      assert p[k] == WeighedHost(hosts[k], 0.0);
      SinglePass(w, hosts);
    }
  }

  /** When every multiplier is zero, every host ends with weight 0. */
  lemma ZeroMultipliers(ws: seq<Weigher>, hosts: seq<HostState>)
    requires AllScorable(ws, hosts)
    requires forall k :: 0 <= k < |ws| ==> ws[k].multiplier == 0.0
    ensures GetWeighedObjects(ws, hosts).Success?
    ensures var r := GetWeighedObjects(ws, hosts).value;
      |r| == |hosts| && forall a :: 0 <= a < |r| ==> r[a].weight == 0.0
  {
    var m := Columns(ws, hosts);
    forall k | 0 <= k < |ws| ensures forall i :: 0 <= i < |hosts| ==> m[k][i] == 0.0 {
      ScaleByZero(Normalize(RawColumn(ws[k], hosts)));
    }
    RowSumsZero(m, |hosts|);
    var p := Weighed(hosts, ExpectedWeights(ws, hosts));
    var r := GetWeighedObjects(ws, hosts).value;
    assert |r| == |multiset(r)| == |hosts|;
    forall a | 0 <= a < |r| ensures r[a].weight == 0.0 {
      var i := SourceOf(p, r, a);
    }
  }

  /** The weigher with its multiplier times `c`. */
  function Rescaled(w: Weigher, c: real): (v: Weigher)
    ensures v.multiplier == w.multiplier * c
  {
    w.(multiplier := w.multiplier * c)
  }

  /** Every multiplier times `c`. */
  function Rescale(ws: seq<Weigher>, c: real): (vs: seq<Weigher>)
    ensures |vs| == |ws|
    ensures forall k :: 0 <= k < |ws| ==> vs[k] == Rescaled(ws[k], c)
  {
    seq(|ws|, k requires 0 <= k < |ws| => Rescaled(ws[k], c))
  }

  /** The raw score does not depend on the multiplier. */
  lemma RawColumnIgnoresMultiplier(w: Weigher, hosts: seq<HostState>, c: real)
    requires Scorable(w, hosts)
    ensures Scorable(Rescaled(w, c), hosts)
    ensures RawColumn(Rescaled(w, c), hosts) == RawColumn(w, hosts)
  {
    assert forall i :: 0 <= i < |hosts| ==> RawScore(Rescaled(w, c), hosts[i]) == RawScore(w, hosts[i]);
  }

  /** A weigher's column is linear in its multiplier. */
  lemma ColumnScale(w: Weigher, hosts: seq<HostState>, c: real)
    requires Scorable(w, hosts)
    ensures Scorable(Rescaled(w, c), hosts)
    ensures Column(Rescaled(w, c), hosts) == Scale(Column(w, hosts), c)
  {
    var v := Rescaled(w, c);
    RawColumnIgnoresMultiplier(w, hosts, c);
    var n := Normalize(RawColumn(w, hosts));
    ScaleTwice(n, w.multiplier, c, v.multiplier);
  }

  /** Weights are linear in the multipliers: multiplying every multiplier by
      `c` multiplies every host's weight by `c`. */
  lemma MultipliersScale(ws: seq<Weigher>, hosts: seq<HostState>, c: real)
    requires AllScorable(ws, hosts)
    ensures AllScorable(Rescale(ws, c), hosts)
    ensures ExpectedWeights(Rescale(ws, c), hosts) == Scale(ExpectedWeights(ws, hosts), c)
  {
    var vs := Rescale(ws, c);
    forall k | 0 <= k < |ws| ensures Scorable(vs[k], hosts) && Column(vs[k], hosts) == Scale(Column(ws[k], hosts), c) {
      ColumnScale(ws[k], hosts, c);
    }
    assert Columns(vs, hosts) == ScaleAll(Columns(ws, hosts), c);
    RowSumsScale(Columns(ws, hosts), |hosts|, c);
  }

  /** Every host reports every configured metric. */
  predicate AllComplete(setting: Setting, hosts: seq<HostState>) {
    forall i :: 0 <= i < |hosts| ==> HasAll(setting, hosts[i].metrics)
  }

  /** The metrics raw scores of hosts that report every metric. */
  function MetricSums(setting: Setting, hosts: seq<HostState>): (xs: seq<real>)
    requires AllComplete(setting, hosts)
    ensures |xs| == |hosts|
    ensures forall i :: 0 <= i < |hosts| ==> xs[i] == WeightedSum(setting, hosts[i].metrics)
  {
    seq(|hosts|, i requires 0 <= i < |hosts| => WeightedSum(setting, hosts[i].metrics))
  }

  /** Negating every ratio of the metrics setting mirrors the weights: a
      host's new weight is the multiplier minus its old weight, so the
      order of any two hosts' weights is reversed. */
  lemma NegatedRatiosMirror(setting: Setting, m: real, required: bool, unavailable: real, hosts: seq<HostState>)
    requires AllComplete(setting, hosts) && !AllEqual(MetricSums(setting, hosts))
    ensures var w, v := MetricsWeigher(setting, m, required, unavailable), MetricsWeigher(NegateRatios(setting), m, required, unavailable);
      && AllScorable([w], hosts) && AllScorable([v], hosts)
      && forall i :: 0 <= i < |hosts| ==> ExpectedWeights([v], hosts)[i] == m - ExpectedWeights([w], hosts)[i]
  {
    var w, v := MetricsWeigher(setting, m, required, unavailable), MetricsWeigher(NegateRatios(setting), m, required, unavailable);
    var raws := MetricSums(setting, hosts);
    NegatedRaws(setting, m, required, unavailable, hosts);
    SingleWeigher(w, hosts);
    SingleWeigher(v, hosts);
    NormalizeNegate(raws);
    ScaleMirror(Normalize(raws), Normalize(Negate(raws)), m);
  }

  lemma NegatedRaws(setting: Setting, m: real, required: bool, unavailable: real, hosts: seq<HostState>)
    requires AllComplete(setting, hosts)
    ensures var w, v := MetricsWeigher(setting, m, required, unavailable), MetricsWeigher(NegateRatios(setting), m, required, unavailable);
      && Scorable(w, hosts) && Scorable(v, hosts)
      && RawColumn(w, hosts) == MetricSums(setting, hosts)
      && RawColumn(v, hosts) == Negate(MetricSums(setting, hosts))
  {
    forall i | 0 <= i < |hosts|
      ensures HasAll(NegateRatios(setting), hosts[i].metrics)
      ensures WeightedSum(NegateRatios(setting), hosts[i].metrics) == -WeightedSum(setting, hosts[i].metrics)
    {
      NegateRatiosScore(setting, hosts[i].metrics);
    }
  }

  /** With a metric not required and a penalty below the score of every
      complete host, no host lacking a metric ranks above a host that has
      them all, and the pass does not fail. */
  lemma MissingMetricRanksLast(setting: Setting, m: real, unavailable: real, hosts: seq<HostState>)
    requires m > 0.0
    requires forall i :: 0 <= i < |hosts| && HasAll(setting, hosts[i].metrics) ==> unavailable < WeightedSum(setting, hosts[i].metrics)
    ensures GetWeighedObjects([MetricsWeigher(setting, m, false, unavailable)], hosts).Success?
    ensures var r := GetWeighedObjects([MetricsWeigher(setting, m, false, unavailable)], hosts).value;
      forall a, b :: 0 <= a < b < |r| && HasAll(setting, r[b].obj.metrics) ==> HasAll(setting, r[a].obj.metrics)
  {
    var w := MetricsWeigher(setting, m, false, unavailable);
    assert Scorable(w, hosts);
    var raws := RawColumn(w, hosts);
    var p := Weighed(hosts, Column(w, hosts));
    SinglePass(w, hosts);
    var r := GetWeighedObjects([w], hosts).value;
    forall a, b | 0 <= a < b < |r| && HasAll(setting, r[b].obj.metrics) ensures HasAll(setting, r[a].obj.metrics) {
      CompleteAbove(setting, m, unavailable, hosts, r, a, b);
    }
  }

  lemma CompleteAbove(setting: Setting, m: real, unavailable: real, hosts: seq<HostState>, r: seq<WeighedHost>, a: nat, b: nat)
    requires m > 0.0
    requires forall i :: 0 <= i < |hosts| && HasAll(setting, hosts[i].metrics) ==> unavailable < WeightedSum(setting, hosts[i].metrics)
    requires Scorable(MetricsWeigher(setting, m, false, unavailable), hosts)
    requires r == SortByWeight(Weighed(hosts, Column(MetricsWeigher(setting, m, false, unavailable), hosts)))
    requires a < b < |r| && HasAll(setting, r[b].obj.metrics)
    ensures HasAll(setting, r[a].obj.metrics)
  {
    var w := MetricsWeigher(setting, m, false, unavailable);
    var raws := RawColumn(w, hosts);
    var p := Weighed(hosts, Column(w, hosts));
    if !HasAll(setting, r[a].obj.metrics) {
      var i := SourceOf(p, r, a);
      var j := SourceOf(p, r, b);
      assert raws[i] == unavailable < raws[j];
      ScaledOrder(raws, m, i, j);
      assert false;
    }
  }

  /** With metrics not required and a negative multiplier the order turns
      over: no host that has every configured metric ranks above a host
      lacking one, so the penalised hosts come first. */
  lemma MissingMetricRanksFirst(setting: Setting, m: real, unavailable: real, hosts: seq<HostState>)
    requires m < 0.0
    requires forall i :: 0 <= i < |hosts| && HasAll(setting, hosts[i].metrics) ==> unavailable < WeightedSum(setting, hosts[i].metrics)
    ensures GetWeighedObjects([MetricsWeigher(setting, m, false, unavailable)], hosts).Success?
    ensures var r := GetWeighedObjects([MetricsWeigher(setting, m, false, unavailable)], hosts).value;
      forall a, b :: 0 <= a < b < |r| && HasAll(setting, r[a].obj.metrics) ==> HasAll(setting, r[b].obj.metrics)
  {
    var w := MetricsWeigher(setting, m, false, unavailable);
    assert Scorable(w, hosts);
    SinglePass(w, hosts);
    var r := GetWeighedObjects([w], hosts).value;
    forall a, b | 0 <= a < b < |r| && HasAll(setting, r[a].obj.metrics) ensures HasAll(setting, r[b].obj.metrics) {
      CompleteBelow(setting, m, unavailable, hosts, r, a, b);
    }
  }

  lemma CompleteBelow(setting: Setting, m: real, unavailable: real, hosts: seq<HostState>, r: seq<WeighedHost>, a: nat, b: nat)
    requires m < 0.0
    requires forall i :: 0 <= i < |hosts| && HasAll(setting, hosts[i].metrics) ==> unavailable < WeightedSum(setting, hosts[i].metrics)
    requires Scorable(MetricsWeigher(setting, m, false, unavailable), hosts)
    requires r == SortByWeight(Weighed(hosts, Column(MetricsWeigher(setting, m, false, unavailable), hosts)))
    requires a < b < |r| && HasAll(setting, r[a].obj.metrics)
    ensures HasAll(setting, r[b].obj.metrics)
  {
    var w := MetricsWeigher(setting, m, false, unavailable);
    var raws := RawColumn(w, hosts);
    var p := Weighed(hosts, Column(w, hosts));
    if !HasAll(setting, r[b].obj.metrics) {
      var i := SourceOf(p, r, a);
      var j := SourceOf(p, r, b);
      assert raws[j] == unavailable < raws[i];
      ScaledOrder(raws, m, j, i);
      assert false;
    }
  }

  /** With metrics required, the pass fails on the first host, in host
      order, that lacks a configured metric, naming the first metric it
      lacks. */
  lemma RequiredMetricFails(setting: Setting, m: real, unavailable: real, hosts: seq<HostState>, i: nat)
    requires i < |hosts| && !HasAll(setting, hosts[i].metrics)
    requires forall j :: 0 <= j < i ==> HasAll(setting, hosts[j].metrics)
    ensures GetWeighedObjects([MetricsWeigher(setting, m, true, unavailable)], hosts)
      == Failure(MetricNotFound(hosts[i].host, setting[FirstMissing(setting, hosts[i].metrics)].0))
  {
    var w := MetricsWeigher(setting, m, true, unavailable);
    var e := MetricNotFound(hosts[i].host, setting[FirstMissing(setting, hosts[i].metrics)].0);
    assert RawScore(w, hosts[i]) == Failure(e);
    assert FirstFailureAt(w, hosts, e, i);
    assert !Scorable(w, hosts);
    assert [w][0] == w;
    assert !AllScorable([w], hosts);
    var r := GetWeighedObjects([w], hosts);
    var k :| 0 <= k < 1 && AllScorable([w][..k], hosts) && FirstFailure([w][k], hosts, r.error);
    FirstFailureUnique(w, hosts, e, r.error, i);
  }
}

=== FILE: scenarios_metrics.dfy ===
/** The scheduler's metrics weigher scenarios: six hosts reporting `foo`,
    `bar` and, on two of them, `zot`, weighed under settings given as
    configuration text. */
module MetricsScenarios {
  import opened Wrappers
  import opened Hosts
  import opened Weighers
  import opened MetricsSetting
  import opened WeightHandler
  import opened Ranking
  import opened SettingScenarios

  /** host1: foo=512 bar=1; host2: foo=1024 bar=2; host3: foo=3072 bar=1;
      host4: foo=8192 bar=0; host5: foo=768 bar=0 zot=1;
      host6: foo=2048 bar=0 zot=2. Memory and I/O load play no part. */
  function MetricsHosts(): (hosts: seq<HostState>)
    ensures |hosts| == 6
  {
    [ HostState("host1", 0, 0, map["foo" := 512.0, "bar" := 1.0]),
      HostState("host2", 0, 0, map["foo" := 1024.0, "bar" := 2.0]),
      HostState("host3", 0, 0, map["foo" := 3072.0, "bar" := 1.0]),
      HostState("host4", 0, 0, map["foo" := 8192.0, "bar" := 0.0]),
      HostState("host5", 0, 0, map["foo" := 768.0, "bar" := 0.0, "zot" := 1.0]),
      HostState("host6", 0, 0, map["foo" := 2048.0, "bar" := 0.0, "zot" := 2.0]) ]
  }

  lemma WeightedSumOne(p: (string, real), metrics: map<string, real>)
    requires p.0 in metrics
    ensures HasAll([p], metrics)
    ensures WeightedSum([p], metrics) == metrics[p.0] * p.1
  {
    assert [p][1..] == [];
  }

  lemma WeightedSumTwo(p: (string, real), q: (string, real), metrics: map<string, real>)
    requires p.0 in metrics && q.0 in metrics
    ensures HasAll([p, q], metrics)
    ensures WeightedSum([p, q], metrics) == metrics[p.0] * p.1 + metrics[q.0] * q.1
  {
    assert [p, q][1..] == [q];
    WeightedSumOne(q, metrics);
  }

  /** `foo=1`: the host with the most `foo` comes first with weight 1. */
  lemma SingleResource()
    ensures var r := GetWeighedObjects([DefaultMetricsWeigher(ParseSetting(["foo=1"]))], MetricsHosts());
      r.Success? && r.value[0].weight == 1.0 && r.value[0].obj.host == "host4"
  {
    SettingFooOne();
    FooUnit(ParseSetting(["foo=1"]));
  }

  lemma FooUnit(setting: Setting)
    requires setting == [("foo", 1.0)]
    ensures var r := GetWeighedObjects([DefaultMetricsWeigher(setting)], MetricsHosts());
      r.Success? && r.value[0].weight == 1.0 && r.value[0].obj.host == "host4"
  {
    var p := ("foo", 1.0);
    var w, hosts := DefaultMetricsWeigher([p]), MetricsHosts();
    forall i | 0 <= i < 6 ensures HasAll([p], hosts[i].metrics) && WeightedSum([p], hosts[i].metrics) == hosts[i].metrics["foo"] {
      WeightedSumOne(p, hosts[i].metrics);
    }
    assert Scorable(w, hosts);
    assert RawColumn(w, hosts) == [512.0, 1024.0, 3072.0, 8192.0, 768.0, 2048.0];
    TopHost(w, hosts, 3);
  }

  /** `foo=0.0001`, `bar=1`: `bar` dominates and the host with the most
      `bar` wins. */
  lemma MultipleResource()
    ensures var r := GetWeighedObjects([DefaultMetricsWeigher(ParseSetting(["foo=0.0001", "bar=1"]))], MetricsHosts());
      r.Success? && r.value[0].weight == 1.0 && r.value[0].obj.host == "host2"
  {
    SettingFooBar();
    FooAndBar(ParseSetting(["foo=0.0001", "bar=1"]));
  }

  lemma FooAndBar(setting: Setting)
    requires setting == [("foo", 0.0001), ("bar", 1.0)]
    ensures var r := GetWeighedObjects([DefaultMetricsWeigher(setting)], MetricsHosts());
      r.Success? && r.value[0].weight == 1.0 && r.value[0].obj.host == "host2"
  {
    var p, q := ("foo", 0.0001), ("bar", 1.0);
    var w, hosts := DefaultMetricsWeigher([p, q]), MetricsHosts();
    forall i | 0 <= i < 6
      ensures HasAll([p, q], hosts[i].metrics)
      ensures WeightedSum([p, q], hosts[i].metrics) == hosts[i].metrics["foo"] * 0.0001 + hosts[i].metrics["bar"]
    {
      WeightedSumTwo(p, q, hosts[i].metrics);
    }
    assert Scorable(w, hosts);
    assert RawColumn(w, hosts) == [1.0512, 2.1024, 1.3072, 0.8192, 0.0768, 0.2048];
    TopHost(w, hosts, 1);
  }

  /** `foo=-1`: the host with the least `foo` wins. */
  lemma NegativeRatio()
    ensures var r := GetWeighedObjects([DefaultMetricsWeigher(ParseSetting(["foo=-1"]))], MetricsHosts());
      r.Success? && r.value[0].weight == 1.0 && r.value[0].obj.host == "host1"
  {
    SettingFooNegative();
    FooNegated(ParseSetting(["foo=-1"]));
  }

  lemma FooNegated(setting: Setting)
    requires setting == [("foo", -1.0)]
    ensures var r := GetWeighedObjects([DefaultMetricsWeigher(setting)], MetricsHosts());
      r.Success? && r.value[0].weight == 1.0 && r.value[0].obj.host == "host1"
  {
    var p := ("foo", -1.0);
    var w, hosts := DefaultMetricsWeigher([p]), MetricsHosts();
    forall i | 0 <= i < 6 ensures HasAll([p], hosts[i].metrics) && WeightedSum([p], hosts[i].metrics) == -hosts[i].metrics["foo"] {
      WeightedSumOne(p, hosts[i].metrics);
    }
    assert Scorable(w, hosts);
    assert RawColumn(w, hosts) == [-512.0, -1024.0, -3072.0, -8192.0, -768.0, -2048.0];
    TopHost(w, hosts, 0);
  }

  /** The pass under the setting `foo=0.0001` alone. */
  lemma FooOnly(setting: Setting)
    requires setting == [("foo", 0.0001)]
    ensures var r := GetWeighedObjects([DefaultMetricsWeigher(setting)], MetricsHosts());
      r.Success? && r.value[0].weight == 1.0 && r.value[0].obj.host == "host4"
  {
    var p := ("foo", 0.0001);
    var w, hosts := DefaultMetricsWeigher([p]), MetricsHosts();
    forall i | 0 <= i < 6 ensures HasAll([p], hosts[i].metrics) && WeightedSum([p], hosts[i].metrics) == hosts[i].metrics["foo"] * 0.0001 {
      WeightedSumOne(p, hosts[i].metrics);
    }
    assert Scorable(w, hosts);
    assert RawColumn(w, hosts) == [0.0512, 0.1024, 0.3072, 0.8192, 0.0768, 0.2048];
    TopHost(w, hosts, 3);
  }

  /** `bar` without a ratio is dropped, so only `foo` counts. */
  lemma MissingRatio()
    ensures var r := GetWeighedObjects([DefaultMetricsWeigher(ParseSetting(["foo=0.0001", "bar"]))], MetricsHosts());
      r.Success? && r.value[0].weight == 1.0 && r.value[0].obj.host == "host4"
  {
    SettingMalformedSecond();
    FooOnly(ParseSetting(["foo=0.0001", "bar"]));
  }

  /** `bar = 2.0t` has a ratio that is not a number, so only `foo` counts. */
  lemma WrongRatio()
    ensures var r := GetWeighedObjects([DefaultMetricsWeigher(ParseSetting(["foo=0.0001", "bar = 2.0t"]))], MetricsHosts());
      r.Success? && r.value[0].weight == 1.0 && r.value[0].obj.host == "host4"
  {
    SettingMalformedSecond();
    FooOnly(ParseSetting(["foo=0.0001", "bar = 2.0t"]));
  }

  /** With metrics required, `zot` is missing on host1, the first host, so
      the pass fails naming host1 and `zot`. */
  lemma MetricNotFoundRequired()
    ensures GetWeighedObjects([DefaultMetricsWeigher(ParseSetting(["foo=1", "zot=2"]))], MetricsHosts())
      == Failure(MetricNotFound("host1", "zot"))
  {
    SettingFooZot();
    ZotRequired(ParseSetting(["foo=1", "zot=2"]));
  }

  lemma ZotRequired(setting: Setting)
    requires setting == [("foo", 1.0), ("zot", 2.0)]
    ensures GetWeighedObjects([DefaultMetricsWeigher(setting)], MetricsHosts())
      == Failure(MetricNotFound("host1", "zot"))
  {
    var hosts := MetricsHosts();
    assert setting[1].0 !in hosts[0].metrics;
    assert !HasAll(setting, hosts[0].metrics);
    assert FirstMissing(setting, hosts[0].metrics) == 1;
    RequiredMetricFails(setting, DefaultMetricsMultiplier, DefaultWeightOfUnavailable, hosts, 0);
  }

  /** With metrics not required, the four hosts lacking `zot` get the
      penalty score; of host5 and host6, host5 scores higher and wins. */
  lemma MetricNotFoundNonRequired()
    ensures var r := GetWeighedObjects([MetricsWeigher(ParseSetting(["foo=0.0001", "zot=-1"]), 1.0, false, DefaultWeightOfUnavailable)], MetricsHosts());
      r.Success? && r.value[0].weight == 1.0 && r.value[0].obj.host == "host5"
  {
    SettingFooZotNegative();
    ZotOptional(ParseSetting(["foo=0.0001", "zot=-1"]));
  }

  lemma ZotOptional(setting: Setting)
    requires setting == [("foo", 0.0001), ("zot", -1.0)]
    ensures var r := GetWeighedObjects([MetricsWeigher(setting, 1.0, false, DefaultWeightOfUnavailable)], MetricsHosts());
      r.Success? && r.value[0].weight == 1.0 && r.value[0].obj.host == "host5"
  {
    var p, q := ("foo", 0.0001), ("zot", -1.0);
    var w, hosts := MetricsWeigher([p, q], 1.0, false, DefaultWeightOfUnavailable), MetricsHosts();
    forall i | 0 <= i < 4 ensures !HasAll([p, q], hosts[i].metrics) {
      assert [p, q][1].0 !in hosts[i].metrics;
    }
    forall i | 4 <= i < 6
      ensures HasAll([p, q], hosts[i].metrics)
      ensures WeightedSum([p, q], hosts[i].metrics) == hosts[i].metrics["foo"] * 0.0001 - hosts[i].metrics["zot"]
    {
      WeightedSumTwo(p, q, hosts[i].metrics);
    }
    assert Scorable(w, hosts);
    assert RawColumn(w, hosts) == [-10000.0, -10000.0, -10000.0, -10000.0, -0.9232, -1.7952];
    TopHost(w, hosts, 4);
  }
}

=== FILE: scenarios_ram.dfy ===
/** The scheduler's RAM and I/O weigher scenarios, stated as lemmas about
    single-weigher passes over fixed candidate lists. */
module ResourceScenarios {
  import opened Wrappers
  import opened Hosts
  import opened Weighers
  import opened WeightHandler
  import opened Ranking

  /** Four hosts with 512, 1024, 3072 and 8192 MB of free memory. */
  function RamHosts(): (hosts: seq<HostState>)
    ensures |hosts| == 4
  {
    [ HostState("host1", 512, 0, map[]),
      HostState("host2", 1024, 0, map[]),
      HostState("host3", 3072, 0, map[]),
      HostState("host4", 8192, 0, map[]) ]
  }

  /** The same four hosts plus an over-committed one with -512 MB free. */
  function RamHostsWithNegative(): (hosts: seq<HostState>)
    ensures |hosts| == 5
  {
    [ HostState("host1", 512, 0, map[]),
      HostState("host2", 1024, 0, map[]),
      HostState("host3", 3072, 0, map[]),
      HostState("host4", 8192, 0, map[]),
      HostState("negative", -512, 0, map[]) ]
  }

  /** Four hosts with 1, 2, 0 and 4 in-flight I/O operations. */
  function IoOpsHosts(): (hosts: seq<HostState>)
    ensures |hosts| == 4
  {
    [ HostState("host1", 512, 1, map[]),
      HostState("host2", 1024, 2, map[]),
      HostState("host3", 3072, 0, map[]),
      HostState("host4", 8192, 4, map[]) ]
  }

  /** By default the RAM weigher spreads: the host with the most free memory
      comes first, with weight 1. */
  lemma RamSpreadsByDefault()
    ensures var r := GetWeighedObjects([RamWeigher(DefaultRamMultiplier)], RamHosts());
      r.Success? && r.value[0].weight == 1.0 && r.value[0].obj.host == "host4"
  {
    var w, hosts := RamWeigher(DefaultRamMultiplier), RamHosts();
    assert Scorable(w, hosts);
    TopHost(w, hosts, 3);
  }

  /** A zero RAM multiplier gives every host weight 0. */
  lemma RamZeroMultiplier()
    ensures var r := GetWeighedObjects([RamWeigher(0.0)], RamHosts());
      r.Success? && r.value != [] && r.value[0].weight == 0.0
  {
    var w, hosts := RamWeigher(0.0), RamHosts();
    assert AllScorable([w], hosts);
    ZeroMultipliers([w], hosts);
  }

  /** A RAM multiplier of 2 doubles the winner's weight. */
  lemma RamDoubleMultiplier()
    ensures var r := GetWeighedObjects([RamWeigher(2.0)], RamHosts());
      r.Success? && r.value[0].weight == 2.0 && r.value[0].obj.host == "host4"
  {
    var w, hosts := RamWeigher(2.0), RamHosts();
    assert Scorable(w, hosts);
    TopHost(w, hosts, 3);
  }

  /** With an over-committed host among the candidates, the host with the
      most free memory still comes first with weight 1. */
  lemma RamNegativeFreeMemoryWinner()
    ensures var r := GetWeighedObjects([RamWeigher(1.0)], RamHostsWithNegative());
      r.Success? && r.value[0].weight == 1.0 && r.value[0].obj.host == "host4"
  {
    NegativeHostsRaw();
    TopHost(RamWeigher(1.0), RamHostsWithNegative(), 3);
  }

  /** The over-committed host comes last, with weight 0. */
  lemma RamNegativeFreeMemoryLoser()
    ensures var r := GetWeighedObjects([RamWeigher(1.0)], RamHostsWithNegative());
      r.Success? && |r.value| == 5 && r.value[4].weight == 0.0 && r.value[4].obj.host == "negative"
  {
    NegativeHostsRaw();
    BottomHost(RamWeigher(1.0), RamHostsWithNegative(), 4);
  }

  lemma NegativeHostsRaw()
    ensures Scorable(RamWeigher(1.0), RamHostsWithNegative())
    ensures RawColumn(RamWeigher(1.0), RamHostsWithNegative()) == [512.0, 1024.0, 3072.0, 8192.0, -512.0]
  {
    var w, hosts := RamWeigher(1.0), RamHostsWithNegative();
    assert Scorable(w, hosts);
  }

  /** By default the I/O weigher avoids load: the idle host comes first,
      with weight 0. */
  lemma IoOpsAvoidsLoadByDefault()
    ensures var r := GetWeighedObjects([IoOpsWeigher(DefaultIoOpsMultiplier)], IoOpsHosts());
      r.Success? && r.value[0].weight == 0.0 && r.value[0].obj.host == "host3"
  {
    var w, hosts := IoOpsWeigher(DefaultIoOpsMultiplier), IoOpsHosts();
    assert Scorable(w, hosts);
    TopHostInverted(w, hosts, 2);
  }

  /** A zero I/O multiplier gives every host weight 0. */
  lemma IoOpsZeroMultiplier()
    ensures var r := GetWeighedObjects([IoOpsWeigher(0.0)], IoOpsHosts());
      r.Success? && r.value != [] && r.value[0].weight == 0.0
  {
    var w, hosts := IoOpsWeigher(0.0), IoOpsHosts();
    assert AllScorable([w], hosts);
    ZeroMultipliers([w], hosts);
  }

  /** A positive I/O multiplier prefers the busiest host. */
  lemma IoOpsPositiveMultiplier()
    ensures var r := GetWeighedObjects([IoOpsWeigher(2.0)], IoOpsHosts());
      r.Success? && r.value[0].weight == 2.0 && r.value[0].obj.host == "host4"
  {
    var w, hosts := IoOpsWeigher(2.0), IoOpsHosts();
    assert Scorable(w, hosts);
    TopHost(w, hosts, 3);
  }

  /** The diagnostic mapping of a weighed host holds its weight and host name
      and reads back to them. */
  lemma DictConversion(weight: real)
    ensures var d := ToDict(WeighedHost(HostState("somehost", 0, 0, map[]), weight));
      d == map["weight" := WeightValue(weight), "host" := HostValue("somehost")]
      && FromDict(d) == Some((weight, "somehost"))
  {
    ToDictExact(WeighedHost(HostState("somehost", 0, 0, map[]), weight), WeighedHost(HostState("somehost", 0, 0, map[]), weight));
  }
}

=== FILE: scenarios_setting.dfy ===
/** The `weight_setting` values the scheduler's metrics scenarios configure,
    and what each parses to. */
module SettingScenarios {
  import opened Wrappers
  import opened Decimal
  import opened MetricsSetting

  /** A two-entry setting is the pairs of its first entry followed by those
      of its second. */
  lemma ParsePair(a: string, b: string)
    ensures ParseSetting([a, b]) == EntryPairs(a) + EntryPairs(b)
  {
    ParseSettingCons(a, [b]);
    ParseSettingCons(b, []);
    assert [b] + [] == [b];
  }

  lemma ParseSingle(a: string)
    ensures ParseSetting([a]) == EntryPairs(a)
  {
    ParseSettingCons(a, []);
    assert [a] + [] == [a];
  }

  // Entries that are kept.

  /** An entry spelled canonically is kept with its name and value. */
  lemma Kept(opt: string, name: string, d: Numeral, v: real)
    requires WellFormed(d)
    requires name != [] && '=' !in name && !IsSpace(name[0]) && !IsSpace(name[|name| - 1])
    requires RenderEntry(name, d) == opt && ValueOf(d) == v
    ensures ParseEntry(opt) == Some((name, v))
  {
    EntryRoundTrip(name, d);
  }

  lemma EntryFooOne()
    ensures ParseEntry("foo=1") == Some(("foo", 1.0))
  {
    Kept("foo=1", "foo", Numeral(false, 1, ""), 1.0);
  }

  lemma EntryFooTenThousandth()
    ensures ParseEntry("foo=0.0001") == Some(("foo", 0.0001))
  {
    assert DigitsValue("0") == 0 by {
      assert "0"[..0] == "";
    }
    assert DigitsValue("00") == 0 by {
      assert "00"[..1] == "0";
    }
    assert DigitsValue("000") == 0 by {
      assert "000"[..2] == "00";
    }
    assert DigitsValue("0001") == 1 by {
      assert "0001"[..3] == "000";
    }
    assert Pow10(4) == 10000;
    assert NatToDigits(0) == "0";
    Kept("foo=0.0001", "foo", Numeral(false, 0, "0001"), 0.0001);
  }

  lemma EntryFooMinusOne()
    ensures ParseEntry("foo=-1") == Some(("foo", -1.0))
  {
    Kept("foo=-1", "foo", Numeral(true, 1, ""), -1.0);
  }

  lemma EntryBarOne()
    ensures ParseEntry("bar=1") == Some(("bar", 1.0))
  {
    Kept("bar=1", "bar", Numeral(false, 1, ""), 1.0);
  }

  lemma EntryBarMinusTwoPointOne()
    ensures ParseEntry("bar=-2.1") == Some(("bar", -2.1))
  {
    assert DigitsValue("1") == 1 by {
      assert "1"[..0] == "";
    }
    Kept("bar=-2.1", "bar", Numeral(true, 2, "1"), -2.1);
  }

  lemma EntryZotTwo()
    ensures ParseEntry("zot=2") == Some(("zot", 2.0))
  {
    Kept("zot=2", "zot", Numeral(false, 2, ""), 2.0);
  }

  lemma EntryZotMinusOne()
    ensures ParseEntry("zot=-1") == Some(("zot", -1.0))
  {
    Kept("zot=-1", "zot", Numeral(true, 1, ""), -1.0);
  }

  // Entries that are dropped.

  /** An entry whose text after its first `=` is not a number is dropped. */
  lemma RatioRejected(opt: string, i: nat)
    requires i < |opt| && opt[i] == '=' && forall k :: 0 <= k < i ==> opt[k] != '='
    requires ParseFloat(opt[i + 1..]) == None
    ensures ParseEntry(opt) == None
  {
    var r := IndexOf(opt, '=');
    if r < i {
      assert false;
    }
    assert r == i;
    assert RatioText(opt) == opt[i + 1..];
  }

  /** A ratio that is not a number. */
  lemma EntryLetterInRatio()
    ensures ParseEntry("foo=a1") == None
  {
    var opt := "foo=a1";
    assert opt[3] == '=' && forall k :: 0 <= k < 3 ==> opt[k] != '=';
    assert opt[4..] == "a1";
    LetterRejected();
    RatioRejected(opt, 3);
  }

  lemma LetterRejected()
    ensures ParseFloat("a1") == None
  {
    assert !IsSpace("a1"[0]) && !IsSpace("a1"[1]);
    assert Trim("a1") == "a1";
    ParseFloatRejects("a1");
  }

  /** Leading whitespace is stripped, but the letter remains. */
  lemma TrailingLetterRejected()
    ensures ParseFloat(" 2.0t") == None
  {
    assert TrimStart(" 2.0t") == "2.0t" by {
      assert " 2.0t"[1..] == "2.0t";
    }
    assert Trim(" 2.0t") == "2.0t";
    assert !IsNumeralChar(Trim(" 2.0t")[3]);
    ParseFloatRejects(" 2.0t");
  }

  /** A name without any ratio. */
  lemma EntryWithoutRatio()
    ensures ParseEntry("foo") == None && ParseEntry("bar") == None
  {
    assert IndexOf("foo", '=') == 3;
    assert IndexOf("bar", '=') == 3;
  }

  /** A ratio without a name. */
  lemma EntryWithoutName()
    ensures ParseEntry("=5") == None
  {
    assert IndexOf("=5", '=') == 0;
    assert Key("=5") == [];
  }

  /** Spaces around the `=` are allowed, but a ratio with a trailing letter
      is not a number. */
  lemma EntryTrailingLetter()
    ensures ParseEntry("bar = 2.0t") == None
  {
    var opt := "bar = 2.0t";
    assert opt[4] == '=' && forall k :: 0 <= k < 4 ==> opt[k] != '=';
    assert opt[5..] == " 2.0t";
    TrailingLetterRejected();
    RatioRejected(opt, 4);
  }

  // Ratio spellings beyond the canonical ones.

  /** Text spelled as a sign, digits, an optional `.` and digits parses to
      the value that spelling denotes. */
  lemma Spelled(t: string, sign: string, w: string, dot: bool, f: string, v: real)
    requires sign == "" || sign == "+" || sign == "-"
    requires AllDigits(w) && AllDigits(f) && |w| + |f| > 0 && (dot || f == [])
    requires sign + DecimalText(w, dot, f) == t && ValueOf(Numeral(sign == "-", DigitsValue(w), f)) == v
    ensures ParseFloat(t) == Some(v)
  {
    FloatValue(sign, w, dot, f);
  }

  /** Leading zeros are allowed. */
  lemma RatioLeadingZeros()
    ensures ParseFloat("007") == Some(7.0)
  {
    assert DigitsValue("007") == 7 by {
      assert "007"[..2] == "00" && "00"[..1] == "0" && "0"[..0] == "";
    }
    Spelled("007", "", "007", false, "", 7.0);
  }

  /** A `.` with no fraction digits after it is allowed. */
  lemma RatioTrailingDot()
    ensures ParseFloat("1.") == Some(1.0)
  {
    assert DigitsValue("1") == 1 by {
      assert "1"[..0] == "";
    }
    Spelled("1.", "", "1", true, "", 1.0);
  }

  /** A `.` with no whole digits before it is allowed. */
  lemma RatioLeadingDot()
    ensures ParseFloat(".5") == Some(0.5)
  {
    assert DigitsValue("5") == 5 by {
      assert "5"[..0] == "";
    }
    Spelled(".5", "", "", true, "5", 0.5);
  }

  /** An explicit `+` is allowed. */
  lemma RatioPlusSign()
    ensures ParseFloat("+1") == Some(1.0)
  {
    assert DigitsValue("1") == 1 by {
      assert "1"[..0] == "";
    }
    Spelled("+1", "+", "1", false, "", 1.0);
  }

  /** A lone `.` has no digit. */
  lemma RatioLoneDot()
    ensures ParseFloat(".") == None
  {
    assert Trim(".") == ".";
    assert !IsNumeralText(".");
  }

  /** Only one sign is allowed. */
  lemma RatioDoubleSign()
    ensures ParseFloat("--1") == None
  {
    var t := "--1";
    assert Trim(t) == t;
    assert t[1..] == "-1";
    SignedNotUnsigned(t);
    SignedNotUnsigned(t[1..]);
  }

  /** Only one `.` is allowed. */
  lemma RatioTwoDots()
    ensures ParseFloat("1.2.3") == None
  {
    var t := "1.2.3";
    assert Trim(t) == t;
    assert IndexOf(t, '.') == 1;
    assert t[2..] == "2.3" && !IsDigit(t[2..][1]);
    assert ParseNumeral(t) == None;
  }

  /** A sign is allowed only in front. */
  lemma RatioInnerSign()
    ensures ParseFloat("1-2") == None
  {
    var t := "1-2";
    assert Trim(t) == t;
    assert IndexOf(t, '.') == 3;
    assert !IsDigit(t[1]);
    assert ParseNumeral(t) == None;
  }

  // Whole settings.

  /** Two kept entries give their two pairs in order. */
  lemma BothKept(a: string, b: string, p: (string, real), q: (string, real))
    requires ParseEntry(a) == Some(p) && ParseEntry(b) == Some(q)
    ensures ParseSetting([a, b]) == [p, q]
  {
    ParsePair(a, b);
    assert EntryPairs(a) == [p] && EntryPairs(b) == [q];
  }

  /** Only the second of two entries is kept. */
  lemma SecondKept(a: string, b: string, q: (string, real))
    requires ParseEntry(a) == None && ParseEntry(b) == Some(q)
    ensures ParseSetting([a, b]) == [q]
  {
    ParsePair(a, b);
    assert EntryPairs(a) == [] && EntryPairs(b) == [q];
  }

  /** Only the first of two entries is kept. */
  lemma FirstKept(a: string, b: string, p: (string, real))
    requires ParseEntry(a) == Some(p) && ParseEntry(b) == None
    ensures ParseSetting([a, b]) == [p]
  {
    ParsePair(a, b);
    assert EntryPairs(a) == [p] && EntryPairs(b) == [];
  }

  lemma SettingFooOne()
    ensures ParseSetting(["foo=1"]) == [("foo", 1.0)]
  {
    ParseSingle("foo=1");
    EntryFooOne();
  }

  lemma SettingFooOneBar()
    ensures ParseSetting(["foo=1", "bar=-2.1"]) == [("foo", 1.0), ("bar", -2.1)]
  {
    EntryFooOne();
    EntryBarMinusTwoPointOne();
    BothKept("foo=1", "bar=-2.1", ("foo", 1.0), ("bar", -2.1));
  }

  /** Each malformed first entry is dropped and the well-formed second one
      kept. */
  lemma SettingMalformedFirst()
    ensures ParseSetting(["foo=a1", "bar=-2.1"]) == [("bar", -2.1)]
    ensures ParseSetting(["foo", "bar=-2.1"]) == [("bar", -2.1)]
    ensures ParseSetting(["=5", "bar=-2.1"]) == [("bar", -2.1)]
  {
    EntryBarMinusTwoPointOne();
    EntryLetterInRatio();
    SecondKept("foo=a1", "bar=-2.1", ("bar", -2.1));
    EntryWithoutRatio();
    SecondKept("foo", "bar=-2.1", ("bar", -2.1));
    EntryWithoutName();
    SecondKept("=5", "bar=-2.1", ("bar", -2.1));
  }

  lemma SettingFooBar()
    ensures ParseSetting(["foo=0.0001", "bar=1"]) == [("foo", 0.0001), ("bar", 1.0)]
  {
    EntryFooTenThousandth();
    EntryBarOne();
    BothKept("foo=0.0001", "bar=1", ("foo", 0.0001), ("bar", 1.0));
  }

  lemma SettingFooNegative()
    ensures ParseSetting(["foo=-1"]) == [("foo", -1.0)]
  {
    ParseSingle("foo=-1");
    EntryFooMinusOne();
  }

  /** A malformed second entry is dropped and the first kept. */
  lemma SettingMalformedSecond()
    ensures ParseSetting(["foo=0.0001", "bar"]) == [("foo", 0.0001)]
    ensures ParseSetting(["foo=0.0001", "bar = 2.0t"]) == [("foo", 0.0001)]
  {
    EntryFooTenThousandth();
    EntryWithoutRatio();
    FirstKept("foo=0.0001", "bar", ("foo", 0.0001));
    EntryTrailingLetter();
    FirstKept("foo=0.0001", "bar = 2.0t", ("foo", 0.0001));
  }

  lemma SettingFooZot()
    ensures ParseSetting(["foo=1", "zot=2"]) == [("foo", 1.0), ("zot", 2.0)]
  {
    EntryFooOne();
    EntryZotTwo();
    BothKept("foo=1", "zot=2", ("foo", 1.0), ("zot", 2.0));
  }

  lemma SettingFooZotNegative()
    ensures ParseSetting(["foo=0.0001", "zot=-1"]) == [("foo", 0.0001), ("zot", -1.0)]
  {
    EntryFooTenThousandth();
    EntryZotMinusOne();
    BothKept("foo=0.0001", "zot=-1", ("foo", 0.0001), ("zot", -1.0));
  }
}

=== FILE: sums.dfy ===
/** Element-wise arithmetic on score lists, and the per-host sums over a list
    of score columns (one column per weigher, one entry per host). */
module Sums {

  function Scale(xs: seq<real>, c: real): (ys: seq<real>)
    ensures |ys| == |xs|
    ensures forall i :: 0 <= i < |xs| ==> ys[i] == xs[i] * c
  {
    seq(|xs|, i requires 0 <= i < |xs| => xs[i] * c)
  }

  function Add(xs: seq<real>, ys: seq<real>): (zs: seq<real>)
    requires |xs| == |ys|
    ensures |zs| == |xs|
    ensures forall i :: 0 <= i < |xs| ==> zs[i] == xs[i] + ys[i]
  {
    seq(|xs|, i requires 0 <= i < |xs| => xs[i] + ys[i])
  }

  function Zeros(n: nat): (zs: seq<real>)
    ensures |zs| == n
    ensures forall i :: 0 <= i < n ==> zs[i] == 0.0
  {
    seq(n, _ => 0.0)
  }

  function Sum(xs: seq<real>): real {
    if xs == [] then 0.0 else xs[0] + Sum(xs[1..])
  }

  /** Every column has one entry per host. */
  predicate Rectangular(m: seq<seq<real>>, n: nat) {
    forall k :: 0 <= k < |m| ==> |m[k]| == n
  }

  /** Entry `i` of every column. */
  function Row(m: seq<seq<real>>, i: nat): (r: seq<real>)
    requires forall k :: 0 <= k < |m| ==> i < |m[k]|
    ensures |r| == |m|
    ensures forall k :: 0 <= k < |m| ==> r[k] == m[k][i]
  {
    seq(|m|, k requires 0 <= k < |m| => m[k][i])
  }

  /** For each of the `n` hosts, the sum of its entries over all columns. */
  function RowSums(m: seq<seq<real>>, n: nat): (s: seq<real>)
    requires Rectangular(m, n)
    ensures |s| == n
  {
    seq(n, i requires 0 <= i < n => Sum(Row(m, i)))
  }

  /** Every column scaled by `c`. */
  function ScaleAll(m: seq<seq<real>>, c: real): (r: seq<seq<real>>)
    ensures |r| == |m|
    ensures forall k :: 0 <= k < |m| ==> r[k] == Scale(m[k], c)
  {
    seq(|m|, k requires 0 <= k < |m| => Scale(m[k], c))
  }

  lemma {:induction false} SumSnoc(xs: seq<real>, x: real)
    ensures Sum(xs + [x]) == Sum(xs) + x
  {
    if xs != [] {
      assert (xs + [x])[1..] == xs[1..] + [x];
      SumSnoc(xs[1..], x);
    }
  }

  lemma SumSingle(x: real)
    ensures Sum([x]) == x
  {
    assert [x][1..] == [];
  }

  lemma {:induction false} SumZero(xs: seq<real>)
    requires forall k :: 0 <= k < |xs| ==> xs[k] == 0.0
    ensures Sum(xs) == 0.0
  {
    if xs != [] {
      SumZero(xs[1..]);
    }
  }

  lemma {:induction false} SumScale(xs: seq<real>, c: real)
    ensures Sum(Scale(xs, c)) == Sum(xs) * c
  {
    if xs != [] {
      var ys, zs := Scale(xs, c), Scale(xs[1..], c);
      forall k | 0 <= k < |zs| ensures ys[1..][k] == zs[k] {
        assert xs[1..][k] == xs[k + 1];
      }
      assert ys[1..] == zs;
      SumScale(xs[1..], c);
      Distribute(xs[0], Sum(xs[1..]), c);
    }
  }

  /** No columns: every host sums to 0. */
  lemma RowSumsEmpty(n: nat)
    ensures RowSums([], n) == Zeros(n)
  {
  }

  /** One more column adds its entries to the sums. */
  lemma RowSumsSnoc(m: seq<seq<real>>, col: seq<real>, n: nat)
    requires Rectangular(m, n) && |col| == n
    ensures Rectangular(m + [col], n)
    ensures RowSums(m + [col], n) == Add(RowSums(m, n), col)
  {
    var m' := m + [col];
    assert Rectangular(m', n);
    forall i | 0 <= i < n ensures RowSums(m', n)[i] == RowSums(m, n)[i] + col[i] {
      assert Row(m', i) == Row(m, i) + [col[i]];
      SumSnoc(Row(m, i), col[i]);
    }
  }

  /** A single column sums to itself. */
  lemma RowSumsSingle(col: seq<real>)
    ensures Rectangular([col], |col|)
    ensures RowSums([col], |col|) == col
  {
    forall i | 0 <= i < |col| ensures RowSums([col], |col|)[i] == col[i] {
      assert Row([col], i) == [col[i]];
      SumSingle(col[i]);
    }
  }

  /** Columns of zeros sum to zero. */
  lemma RowSumsZero(m: seq<seq<real>>, n: nat)
    requires Rectangular(m, n)
    requires forall k, i :: 0 <= k < |m| && 0 <= i < n ==> m[k][i] == 0.0
    ensures RowSums(m, n) == Zeros(n)
  {
    forall i | 0 <= i < n ensures RowSums(m, n)[i] == 0.0 {
      SumZero(Row(m, i));
    }
  }

  /** Scaling every column scales the sums. */
  lemma RowSumsScale(m: seq<seq<real>>, n: nat, c: real)
    requires Rectangular(m, n)
    ensures Rectangular(ScaleAll(m, c), n)
    ensures RowSums(ScaleAll(m, c), n) == Scale(RowSums(m, n), c)
  {
    var sm := ScaleAll(m, c);
    forall i | 0 <= i < n ensures RowSums(sm, n)[i] == RowSums(m, n)[i] * c {
      var l, r := Row(sm, i), Scale(Row(m, i), c);
      forall k | 0 <= k < |m| ensures l[k] == r[k] {
        MultiplyEqual(Row(m, i)[k], m[k][i], c);
      }
      assert l == r;
      SumScale(Row(m, i), c);
    }
  }

  lemma ScaleByZero(xs: seq<real>)
    ensures forall i :: 0 <= i < |xs| ==> Scale(xs, 0.0)[i] == 0.0
  {
  }

  /** Scaling by `a` and then by `c` is scaling by their product `ac`. */
  lemma ScaleTwice(xs: seq<real>, a: real, c: real, ac: real)
    requires ac == a * c
    ensures Scale(xs, ac) == Scale(Scale(xs, a), c)
  {
    var l, r := Scale(xs, ac), Scale(Scale(xs, a), c);
    forall i | 0 <= i < |xs| ensures l[i] == r[i] {
      Associate(xs[i], a, c);
    }
  }

  /** A positive factor keeps the order of two entries, a negative one
      reverses it. */
  lemma ScaleOrder(xs: seq<real>, m: real, i: nat, j: nat)
    requires i < |xs| && j < |xs| && xs[i] < xs[j]
    ensures m > 0.0 ==> Scale(xs, m)[i] < Scale(xs, m)[j]
    ensures m < 0.0 ==> Scale(xs, m)[i] > Scale(xs, m)[j]
  {
    MultiplyStrict(xs[i], xs[j], m);
  }

  /** Scaling entries that are one minus the others gives the factor minus
      the others' scaled entries. */
  lemma ScaleMirror(xs: seq<real>, ys: seq<real>, m: real)
    requires |xs| == |ys|
    requires forall i :: 0 <= i < |xs| ==> ys[i] == 1.0 - xs[i]
    ensures forall i :: 0 <= i < |xs| ==> Scale(ys, m)[i] == m - Scale(xs, m)[i]
  {
    forall i | 0 <= i < |xs| ensures Scale(ys, m)[i] == m - Scale(xs, m)[i] {
      MirrorProduct(xs[i], ys[i], m);
    }
  }

  lemma MirrorProduct(x: real, y: real, m: real)
    requires y == 1.0 - x
    ensures y * m == m - x * m
  {
  }

  lemma ScaleOne(xs: seq<real>, m: real, k: nat)
    requires k < |xs| && xs[k] == 1.0
    ensures Scale(xs, m)[k] == m
  {
  }

  lemma ScaleZero(xs: seq<real>, m: real, k: nat)
    requires k < |xs| && xs[k] == 0.0
    ensures Scale(xs, m)[k] == 0.0
  {
  }

  lemma MultiplyStrict(a: real, b: real, m: real)
    requires a < b
    ensures m > 0.0 ==> a * m < b * m
    ensures m < 0.0 ==> a * m > b * m
  {
  }

  lemma MultiplyEqual(x: real, y: real, c: real)
    requires x == y
    ensures x * c == y * c
  {
  }

  lemma Distribute(a: real, b: real, c: real)
    ensures a * c + b * c == (a + b) * c
  {
  }

  lemma Associate(x: real, a: real, c: real)
    ensures x * (a * c) == (x * a) * c
  {
  }
}

=== FILE: weighers.dfy ===
/** The three concrete weighers and the raw score each computes for one host:
    free memory, in-flight I/O operations, and a configured weighted sum of
    named metrics. */
module Weighers {
  import opened Wrappers
  import opened Hosts
  import opened MetricsSetting

  /** The one fatal condition of a weighing pass: a configured metric that a
      host does not report while metrics are required. */
  datatype WeighError = MetricNotFound(host: string, metric: string)

  /** A weigher with its configuration. Every weigher has a signed
      multiplier; the metrics weigher also has its parsed setting, the
      `required` flag and the raw score given to a host that lacks a metric
      when metrics are not required. */
  datatype Weigher =
    | RamWeigher(multiplier: real)
    | IoOpsWeigher(multiplier: real)
    | MetricsWeigher(setting: Setting, multiplier: real, required: bool, weightOfUnavailable: real)

  /** Spreading: prefer hosts with more free memory. */
  const DefaultRamMultiplier: real := 1.0
  /** Load avoidance: prefer hosts with fewer in-flight I/O operations. */
  const DefaultIoOpsMultiplier: real := -1.0
  const DefaultMetricsMultiplier: real := 1.0
  const DefaultMetricsRequired: bool := true
  /** A very low raw score for a host lacking a metric. */
  const DefaultWeightOfUnavailable: real := -10000.0

  /** The metrics weigher as configured by default, for a given setting. */
  function DefaultMetricsWeigher(setting: Setting): Weigher {
    MetricsWeigher(setting, DefaultMetricsMultiplier, DefaultMetricsRequired, DefaultWeightOfUnavailable)
  }

  /** The host reports every configured metric. */
  predicate HasAll(setting: Setting, metrics: map<string, real>) {
    forall k :: 0 <= k < |setting| ==> setting[k].0 in metrics
  }

  /** The metrics raw score of a host that has all configured metrics:
      the sum of value times ratio. */
  function WeightedSum(setting: Setting, metrics: map<string, real>): real
    requires HasAll(setting, metrics)
  {
    if setting == [] then 0.0
    else metrics[setting[0].0] * setting[0].1 + WeightedSum(setting[1..], metrics)
  }

  /** Position of the first configured metric the host lacks. */
  function FirstMissing(setting: Setting, metrics: map<string, real>): (k: nat)
    requires !HasAll(setting, metrics)
    ensures k < |setting| && setting[k].0 !in metrics
    ensures forall j :: 0 <= j < k ==> setting[j].0 in metrics
  {
    if setting[0].0 !in metrics then 0
    else 1 + FirstMissing(setting[1..], metrics)
  }

  /** The weigher's loop over the configured pairs, `acc` being the sum so
      far. A missing metric either fails the pass (required) or replaces the
      whole score by `unavailable`. */
  function MetricsScoreFrom(setting: Setting, h: HostState, required: bool, unavailable: real, acc: real): (r: Result<real, WeighError>)
    ensures HasAll(setting, h.metrics) ==> r == Success(acc + WeightedSum(setting, h.metrics))
    ensures !HasAll(setting, h.metrics) && !required ==> r == Success(unavailable)
    ensures !HasAll(setting, h.metrics) && required ==>
      r == Failure(MetricNotFound(h.host, setting[FirstMissing(setting, h.metrics)].0))
  {
    if setting == [] then Success(acc)
    else
      var (name, ratio) := setting[0];
      if name in h.metrics then
        var x := h.metrics[name] * ratio;
        assert HasAll(setting, h.metrics) <==> HasAll(setting[1..], h.metrics);
        assert HasAll(setting, h.metrics) ==> WeightedSum(setting, h.metrics) == x + WeightedSum(setting[1..], h.metrics);
        MetricsScoreFrom(setting[1..], h, required, unavailable, acc + x)
      else if required then Failure(MetricNotFound(h.host, name))
      else Success(unavailable)
  }

  /** The metrics raw score of one host. */
  function MetricsScore(setting: Setting, h: HostState, required: bool, unavailable: real): (r: Result<real, WeighError>)
    ensures HasAll(setting, h.metrics) ==> r == Success(WeightedSum(setting, h.metrics))
    ensures !HasAll(setting, h.metrics) && !required ==> r == Success(unavailable)
    ensures !HasAll(setting, h.metrics) && required ==>
      r == Failure(MetricNotFound(h.host, setting[FirstMissing(setting, h.metrics)].0))
  {
    MetricsScoreFrom(setting, h, required, unavailable, 0.0)
  }

  /** The unscaled measurement of one host by one weigher. Only the metrics
      weigher with `required` set can fail. */
  function RawScore(w: Weigher, h: HostState): (r: Result<real, WeighError>)
    ensures r.Failure? ==> w.MetricsWeigher? && w.required && !HasAll(w.setting, h.metrics)
  {
    match w
    case RamWeigher(_) => Success(h.freeRamMb as real)
    case IoOpsWeigher(_) => Success(h.numIoOps as real)
    case MetricsWeigher(setting, _, required, unavailable) => MetricsScore(setting, h, required, unavailable)
  }

  /** Every host can be scored by this weigher. */
  predicate Scorable(w: Weigher, hosts: seq<HostState>) {
    forall i :: 0 <= i < |hosts| ==> RawScore(w, hosts[i]).Success?
  }

  /** The raw scores of all hosts, in host order. */
  function RawColumn(w: Weigher, hosts: seq<HostState>): (xs: seq<real>)
    requires Scorable(w, hosts)
    ensures |xs| == |hosts|
    ensures forall i :: 0 <= i < |hosts| ==> xs[i] == RawScore(w, hosts[i]).value
  {
    seq(|hosts|, i requires 0 <= i < |hosts| => RawScore(w, hosts[i]).value)
  }

  /** The weigher's pass over the candidate list: the raw score of every host
      in order, or the error of the first host that cannot be scored. */
  function RawScores(w: Weigher, hosts: seq<HostState>): (r: Result<seq<real>, WeighError>)
    ensures r.Success? <==> Scorable(w, hosts)
    ensures r.Success? ==> r.value == RawColumn(w, hosts)
    ensures r.Failure? ==> FirstFailure(w, hosts, r.error)
  {
    if hosts == [] then Success([])
    else
      var tail := hosts[1..];
      assert forall i :: 1 <= i < |hosts| ==> hosts[i] == tail[i - 1];
      match RawScore(w, hosts[0])
      case Failure(e) =>
        assert FirstFailureAt(w, hosts, e, 0);
        Failure(e)
      case Success(x) =>
        match RawScores(w, tail)
        case Failure(e) =>
          var i: nat :| FirstFailureAt(w, tail, e, i);
          assert FirstFailureAt(w, hosts, e, i + 1);
          Failure(e)
        case Success(rest) =>
          assert [x] + rest == RawColumn(w, hosts);
          Success([x] + rest)
  }

  /** Host `i` is the first that cannot be scored, and fails with `e`. */
  predicate FirstFailureAt(w: Weigher, hosts: seq<HostState>, e: WeighError, i: nat) {
    && i < |hosts|
    && RawScore(w, hosts[i]) == Failure(e)
    && forall j :: 0 <= j < i ==> RawScore(w, hosts[j]).Success?
  }

  ghost predicate FirstFailure(w: Weigher, hosts: seq<HostState>, e: WeighError) {
    exists i :: FirstFailureAt(w, hosts, e, i)
  }

  /** There is only one first failure. */
  lemma FirstFailureUnique(w: Weigher, hosts: seq<HostState>, e: WeighError, e': WeighError, i: nat)
    requires FirstFailureAt(w, hosts, e, i) && FirstFailure(w, hosts, e')
    ensures e == e'
  {
    var j: nat :| FirstFailureAt(w, hosts, e', j);
    if j < i {
      assert false;
    } else if i < j {
      assert false;
    }
  }

  /** The setting with every ratio's sign flipped. */
  function NegateRatios(setting: Setting): (s: Setting)
    ensures |s| == |setting|
    ensures forall k :: 0 <= k < |s| ==> s[k] == (setting[k].0, -setting[k].1)
  {
    seq(|setting|, k requires 0 <= k < |setting| => (setting[k].0, -setting[k].1))
  }

  /** Flipping the sign of every ratio flips the sign of the metrics raw
      score of every host that has all configured metrics. */
  lemma {:induction false} NegateRatiosScore(setting: Setting, metrics: map<string, real>)
    requires HasAll(setting, metrics)
    ensures HasAll(NegateRatios(setting), metrics)
    ensures WeightedSum(NegateRatios(setting), metrics) == -WeightedSum(setting, metrics)
  {
    var neg := NegateRatios(setting);
    assert HasAll(neg, metrics);
    if setting != [] {
      assert neg[1..] == NegateRatios(setting[1..]);
      NegateRatiosScore(setting[1..], metrics);
    }
  }
}

=== FILE: wrappers.dfy ===
/** Failure-compatible wrappers used across the weighing model: `Option` for the
    lenient parsers, `Result` for the one fatal error of a weighing pass. */
module Wrappers {

  datatype Option<+T> = None | Some(value: T) {

    predicate IsFailure() {
      None?
    }

    function PropagateFailure<U>(): Option<U>
      requires None?
    {
      None
    }

    function Extract(): T
      requires Some?
    {
      value
    }
  }

  datatype Result<+R, +E> = Success(value: R) | Failure(error: E) {

    predicate IsFailure() {
      Failure?
    }

    function PropagateFailure<U>(): Result<U, E>
      requires Failure?
    {
      Failure(error)
    }

    function Extract(): R
      requires Success?
    {
      value
    }
  }
}
